=== FILE: README.md ===
# Syzygy basic-block sub-graph and Kasko HTTP helpers in Dafny

This project models two small cores of the Syzygy toolchain and proves properties about them.

**The basic-block sub-graph** (`block_graph::BasicBlockSubGraph`) is an intermediate form used while rewriting a block of a binary. It holds:

- the basic blocks it creates and owns, keyed by a fresh id;
- an address space recording which byte range of the original block each basic block came from;
- an ordered list of block descriptions, each naming an output block and the basic blocks it will hold, in emission order;
- optionally, the original block, reduced to the offsets its referrers point at.

Three checks decide whether the composition may be committed:

1. Every basic block appears in at most one description.
2. Every placed code basic block has successors that are external or that land on a placed block.
3. Every referrer of the original block lands in the range of a placed block.

**The Kasko HTTP helpers** (`syzygy/kasko/internet_helpers.cc`) cover:

- the Content-Type parser, with its quoted-string scan and white-space trimming;
- URL composition;
- the three pieces of an RFC 2388 multipart/form-data upload: the random boundary, the Content-Type header line announcing it, and the request body.

Modules:

- `Wrappers`: `Option`.
- `AddressSpace`: a sorted list of disjoint, non-empty ranges, each mapped to a block id. It supports insertion with overlap rejection and lookup of the range that contains an offset.
- `SubGraph`:
  - the entities (basic block, block description, original block);
  - the three checks, each as a declarative predicate, plus a decision procedure of this model's own, proved equal to the predicate;
  - the class `BasicBlockSubGraph`, whose factory methods keep a consistency invariant;
  - a scenario: a valid sub-graph becomes invalid when a dangling successor edge is added.
- `Ascii`:
  - white space and ASCII lower-casing;
  - the `find_first_of` and `find_first_not_of` searches;
  - decimal (`UintToString16`) and `%08X` hexadecimal renderings, each with a proved round trip.
- `ContentType`: `FindStringEnd`, `TrimLWS`, the parameter tokenizer, and `ParseContentType`. The parser is broken into the steps its body takes. Each step is specified by a function of the header value.
- `InternetHelpers`:
  - URL composition;
  - boundary generation;
  - the header line, with a proof that the header's value parses back to the boundary;
  - the request body, built by appending as the source does and specified by a function, with lemmas about its shape.

The source's C++ values map to Dafny as follows:

- Strings are `seq<char>`. Wide and narrow strings are not distinguished.
- A NULL output argument is `None`.
- A pair of iterators into the header value is a pair of indices.
- `size_t` positions are `nat`.
- `npos` is the `None` of a search.

Only the header of `BasicBlockSubGraph` is part of this model; `basic_block_subgraph.cc` is not. The header's comments say what the factory and the three checks do but leave details open; where the model fills one in, "## Left out" names the choice. `FindBasicBlock` returns the block whose range begins at the offset, as the header says; a lookup by containment is not modelled.

White space means two different things in the parser:

- The searches (`find_first_not_of`, `find_first_of`) read `kHttpLws` as a C string, so they skip only space and tab (`SearchLws`).
- `IsLWS` asks `wcschr` whether the character is in `kHttpLws`. `wcschr` counts the terminating NUL as part of the string, so `TrimLWS` trims NUL characters as well as space and tab.

## Model

| member | source | states |
|---|---|---|
| AddressSpace.Insert | syzygy/block_graph/basic_block_subgraph.h:105-122 | Inserting a range into the address space succeeds exactly when the range is non-empty and overlaps no mapped range. On success the space stays sorted and disjoint, grows by one, and holds exactly the old entries plus the new one. |
| AddressSpace.FindFirstIntersection | syzygy/block_graph/basic_block_subgraph.h:153-155 | A found entry is in the space and contains the offset. Not found means no entry contains it. |
| AddressSpace.ContainingEntryUnique | syzygy/block_graph/basic_block_subgraph.h:153-155 | In a valid space, any entry that contains an offset is the one the lookup returns, so ranges never share an offset. |
| SubGraph.OriginsDisjoint | syzygy/block_graph/basic_block_subgraph.h:105-117 | Two distinct basic blocks carved from the original block never claim overlapping bytes. |
| SubGraph.BlockAtCorrect | syzygy/block_graph/basic_block_subgraph.h:132-134 | The lookup by starting offset finds block id exactly when some mapped range of that block starts at the offset. |
| SubGraph.Consistent | syzygy/block_graph/basic_block_subgraph.h:36-38 | The invariant of the sub-graph's fields, as the header describes them at lines 144-162. The id counter is above every id in use, so the next id is fresh. Every mapped range is non-empty and belongs to an owned block carved from the original block. |
| SubGraph.InsertAllFresh | syzygy/block_graph/basic_block_subgraph.h:139 | Inserting ids one by one into a seen-set never meets a repeat exactly when the ids are pairwise distinct and none was seen before. |
| SubGraph.FlattenNoDuplicates | syzygy/block_graph/basic_block_subgraph.h:52-54 | The concatenated orderings have no repeated id if and only if no basic block sits at two positions of the descriptions, whether in one description or in two. |
| SubGraph.CodeSuccessorsResolved | syzygy/block_graph/basic_block_subgraph.h:140 | The walk succeeds exactly when every successor of every code block among the ids is external, or targets an existing block in the placed set. |
| SubGraph.SuccessorsValidByWalk | syzygy/block_graph/basic_block_subgraph.h:127 | Walking the placed ids decides check 2 both ways: every placed code block's successors are external or land on a placed block. |
| SubGraph.ReferrersResolved | syzygy/block_graph/basic_block_subgraph.h:141 | The walk succeeds exactly when every referrer offset lies in a mapped range whose block is placed. |
| SubGraph.ReferrersValidByWalk | syzygy/block_graph/basic_block_subgraph.h:128-129 | The address-order lookup decides check 3 both ways: every referrer lands in some mapped range whose block is placed. |
| SubGraph.DoubleBookingInvalid | syzygy/block_graph/basic_block_subgraph.h:52-54 | A block placed at two positions, in one description or in two, violates check 1. |
| SubGraph.DanglingSuccessorInvalid | syzygy/block_graph/basic_block_subgraph.h:127 | A placed code block with an edge to a block placed nowhere violates check 2. |
| SubGraph.DroppedEntryPointInvalid | syzygy/block_graph/basic_block_subgraph.h:128-129 | A referrer into the range of an unplaced block violates check 3. No other range can account for it, because ranges are disjoint. |
| SubGraph.PlacementOnlyMatters | syzygy/block_graph/basic_block_subgraph.h:124-130 | Checks 2 and 3 depend only on the set of placed blocks, not on their positions or descriptions. |
| SubGraph.BasicBlockSubGraph.constructor | syzygy/block_graph/basic_block_subgraph.h:72-73 | A new sub-graph has no original block, no basic blocks, an empty address space, no descriptions and the id counter at zero. It satisfies the invariant. |
| SubGraph.BasicBlockSubGraph.SetOriginalBlock | syzygy/block_graph/basic_block_subgraph.h:77 | Sets only the original block and keeps the invariant. |
| SubGraph.BasicBlockSubGraph.AddBlockDescription | syzygy/block_graph/basic_block_subgraph.h:91-103 | Appends one description with the given properties and an empty ordering, returns its position, and keeps the invariant. |
| SubGraph.BasicBlockSubGraph.AddBasicBlock | syzygy/block_graph/basic_block_subgraph.h:105-122 | Succeeds exactly for a generated block (no offset, size 0) or for a non-empty range free in the address space. On success the new id is the old counter value and was never used, the counter advances by one, the block is stored, and the range is mapped. On failure nothing changes. The invariant is kept. |
| SubGraph.BasicBlockSubGraph.AppendToOrder | syzygy/block_graph/basic_block_subgraph.h:52-61 | Appends an owned block to one description's ordering. Nothing else changes, and the invariant is kept. |
| SubGraph.BasicBlockSubGraph.SetSuccessors | syzygy/block_graph/basic_block_subgraph.h:79-80 | Replaces one owned block's successors. Nothing else changes, and the invariant is kept. |
| SubGraph.BasicBlockSubGraph.FindBasicBlock | syzygy/block_graph/basic_block_subgraph.h:132-134 | Finds a block exactly when a mapped range begins at the offset. The block found is owned and has that offset. |
| SubGraph.BasicBlockSubGraph.MapsBasicBlocksToAtMostOneDescription | syzygy/block_graph/basic_block_subgraph.h:126 | True iff each basic block appears at most once across all descriptions (check 1). |
| SubGraph.BasicBlockSubGraph.HasValidSuccessors | syzygy/block_graph/basic_block_subgraph.h:127 | True iff every placed code block's successors are external or placed (check 2). |
| SubGraph.BasicBlockSubGraph.HasValidReferrers | syzygy/block_graph/basic_block_subgraph.h:128-129 | Always true without an original block. Otherwise true iff every referrer is accounted for by a placed block (check 3). |
| SubGraph.BasicBlockSubGraph.IsValid | syzygy/block_graph/basic_block_subgraph.h:124-130 | True iff checks 1, 2 and 3 all hold. |
| SubGraph.SingleBlockScenario | syzygy/block_graph/basic_block_subgraph.h:99-130 | One generated code block placed in one description gives a valid sub-graph with exactly that content. |
| SubGraph.DanglingSuccessorScenario | syzygy/block_graph/basic_block_subgraph.h:124-130 | That valid sub-graph becomes invalid once a second placed code block has an edge to a block that was never created. |
| Ascii.Wcschr | syzygy/kasko/internet_helpers.cc:55-57 | Finds the first occurrence of the character in a NUL-terminated string, the terminator included: the found index holds it and no earlier index does. None means it occurs nowhere, not even as the terminator. |
| Ascii.CStr | syzygy/kasko/internet_helpers.cc:155-157 | What a C-string reader sees of a string: its longest prefix without a NUL, which is followed by a NUL unless it is the whole string. |
| Ascii.IsLWS | syzygy/kasko/internet_helpers.cc:53-57 | Whether `wcschr` finds the character in `kHttpLws`. That holds exactly for space, tab and NUL. |
| Ascii.LowerCaseEqualsMeaning | syzygy/kasko/internet_helpers.cc:114-120 | The character-wise ASCII case-insensitive comparison holds iff the lowered first string equals the second. |
| Ascii.FindFirstOf | syzygy/kasko/internet_helpers.cc:84-85 | A found index lies in the range and holds one of the characters. Every earlier index, or every index when nothing is found, holds none of them. |
| Ascii.FindFirstNotOf | syzygy/kasko/internet_helpers.cc:82 | A found index holds a character outside the set. Every earlier index, or every index when nothing is found, holds one inside it. |
| Ascii.Decimal | syzygy/kasko/internet_helpers.cc:205 | The rendering is non-empty and all digits, with no leading zero. 0 is written "0", and only 0 is. |
| Ascii.DecimalRoundTrip | syzygy/kasko/internet_helpers.cc:205 | Reading the decimal rendering back gives the number. |
| Ascii.Hex | syzygy/kasko/internet_helpers.cc:223-224 | The rendering has exactly the width requested and only upper-case hexadecimal digits. |
| Ascii.HexRoundTrip | syzygy/kasko/internet_helpers.cc:223-224 | A number below 16 to the power of the width reads back from its rendering unchanged. |
| ContentType.StringEnd | syzygy/kasko/internet_helpers.cc:37-51 | The reference scan ends within the line, and on a delimiter when it ends before the end of the line. |
| ContentType.StringEndSkips | syzygy/kasko/internet_helpers.cc:45-46 | Jumping straight to the next delimiter or backslash gives the same end as scanning one character at a time. |
| ContentType.StringEndWithoutEscapes | syzygy/kasko/internet_helpers.cc:37-51 | With no backslash, the quoted string ends at the first delimiter, or at the end of the line. |
| ContentType.FindStringEnd | syzygy/kasko/internet_helpers.cc:37-51 | Returns an index after the opening quote and at most the line length. An index inside the line holds the delimiter, and a backslash-escaped delimiter never ends the string. |
| ContentType.SkipLeadingMeaning | syzygy/kasko/internet_helpers.cc:61-63 | The leading skip stops at the first character `IsLWS` rejects, or at the end. Everything it passes is accepted by `IsLWS`. |
| ContentType.SkipTrailingMeaning | syzygy/kasko/internet_helpers.cc:65-67 | The trailing skip cuts exactly the run of `IsLWS` characters at the end of the range. |
| ContentType.SkipBothTrims | syzygy/kasko/internet_helpers.cc:59-68 | Skipping from both ends trims the range. Whatever is cut off is accepted by `IsLWS`, and a non-empty rest neither starts nor ends with such a character. |
| ContentType.TrimmingCutsNul | syzygy/kasko/internet_helpers.cc:55-57 | A NUL at the end of a value is trimmed: "utf-8" followed by NUL trims to "utf-8". |
| ContentType.TrimLWS | syzygy/kasko/internet_helpers.cc:59-68 | The range only narrows. Everything cut off is space, tab or NUL, and a non-empty result neither starts nor ends with one of them. |
| ContentType.Tokenize | syzygy/kasko/internet_helpers.cc:94-99 | Every parameter token is a non-empty range inside the value, after the first ';'. |
| ContentType.ParamOfNeedsEquals | syzygy/kasko/internet_helpers.cc:100-103 | A token gives no parameter exactly when it has no '='. |
| ContentType.ParamOfSplitsAtFirstEquals | syzygy/kasko/internet_helpers.cc:100-112 | At the token's first '=', the name is the part before it trimmed of `IsLWS` characters, and the value is the part after it, trimmed the same way. |
| ContentType.LastParam | syzygy/kasko/internet_helpers.cc:99-124 | A parameter found by name lies inside the value. |
| ContentType.LastParamFound | syzygy/kasko/internet_helpers.cc:99-124 | A parameter is found exactly when some token carries that name. |
| ContentType.LastParamIsLast | syzygy/kasko/internet_helpers.cc:99-124 | The parameter found is the one of the last token with that name, so later parameters override earlier ones. |
| ContentType.TypeBegin | syzygy/kasko/internet_helpers.cc:82-83 | The media type starts at the first character that is not a space or tab, or at the end of the value. |
| ContentType.TypeEnd | syzygy/kasko/internet_helpers.cc:84-87 | The media type runs from its start up to the first space, tab, ';' or '(', or to the end of the value. |
| ContentType.ParamTokens | syzygy/kasko/internet_helpers.cc:94-97 | No ';' after the media type means no parameters. Every token starts after the media type's end. |
| ContentType.CharsetRangeMeaning | syzygy/kasko/internet_helpers.cc:131-142 | Let b be the first character of the charset value that is not a space or tab. If b holds a quote, the charset text starts after it and ends at the matching quote, or at the end of the line, possibly past the parameter. Otherwise the text starts at b and stops before the first space, tab, ';' or '(', never passing the value's end. |
| ContentType.ParseParameter | syzygy/kasko/internet_helpers.cc:100-112 | No parameter exactly when the token has no '='. Otherwise the name is the part before the first '=' and the value the part after it, each trimmed of `IsLWS` characters. |
| ContentType.ScanParameters | syzygy/kasko/internet_helpers.cc:89-125 | The loop records the value range of the last charset parameter, or 0 and 0 when there is none. A caller's boundary becomes the value of the last boundary parameter, and a missing boundary stays missing. |
| ContentType.TrimCharset | syzygy/kasko/internet_helpers.cc:127-143 | Starts at the value's first character that is not a space or tab. A quote there gives the quoted string's contents, up to the matching quote. Anything else gives the text before the first space, tab, ';' or '(', within the value. |
| ContentType.SameMediaType | syzygy/kasko/internet_helpers.cc:155-157 | The caller's media type counts as unchanged iff it is non-empty and its part before the first NUL is ASCII and equals the lowered type of the value. |
| ContentType.NulEndsCallerMediaType | syzygy/kasko/internet_helpers.cc:155-157 | Text after a NUL in the caller's media type is ignored ("a/b\0junk" matches "a/b"), and a type holding a NUL never matches. |
| ContentType.ParseContentType | syzygy/kasko/internet_helpers.cc:72-168 | A value that is empty, "*/*" or has no '/' leaves the media type, charset and flag alone. Otherwise the caller's media type is kept when it counts as the same type (`SameMediaType`) and is replaced by the lowered type when it does not. The flag is set iff it was set or a charset parameter is present. The charset becomes the lowered charset text, or is cleared when the flag was set and the type is not the same. A caller's boundary takes the last boundary parameter's value whatever the verdict on the value. |
| InternetHelpers.ComposeUrl | syzygy/kasko/internet_helpers.cc:198-210 | The URL starts with the scheme, then the host, and ends with the path. It is exactly scheme, host and path iff the port is the scheme's default. |
| InternetHelpers.ComposeUrlOmitsDefaultPort | syzygy/kasko/internet_helpers.cc:198-210 | Port 443 for https and port 80 for http are left out: the URL is scheme, host and path. |
| InternetHelpers.ComposeUrlWritesOtherPort | syzygy/kasko/internet_helpers.cc:198-210 | Any other port follows the host after a colon as decimal digits that read back as the port, and the path comes last. |
| InternetHelpers.ComposeUrlWritesDecimalPort | syzygy/kasko/internet_helpers.cc:202-209 | The digits between the colon and the path are exactly the port's decimal rendering, so port 0 appears as "0" and no other port has a leading zero. |
| InternetHelpers.GenerateMultipartHttpRequestBoundary | syzygy/kasko/internet_helpers.cc:212-227 | The boundary is 43 characters: 27 dashes, then upper-case hexadecimal digits. |
| InternetHelpers.BoundaryRoundTrip | syzygy/kasko/internet_helpers.cc:218-224 | Both random words read back from their eight-digit fields. |
| InternetHelpers.GeneratedBoundaryIsPlain | syzygy/kasko/internet_helpers.cc:212-227 | A generated boundary holds no ';', '"', space or tab. |
| InternetHelpers.GenerateMultipartHttpRequestContentTypeHeader | syzygy/kasko/internet_helpers.cc:229-232 | The header line starts with "Content-Type: ", ends with the boundary, and has "multipart/form-data; boundary=" in between. |
| InternetHelpers.ContentTypeHeaderRoundTrip | syzygy/kasko/internet_helpers.cc:229-232 | The header line is "Content-Type: " then a value. The Content-Type parser accepts that value, reads its media type as multipart/form-data, and reads back the same boundary. |
| InternetHelpers.GenerateMultipartHttpRequestBody | syzygy/kasko/internet_helpers.cc:234-267 | The appended body equals the specified body: one part per parameter in key order, the file part, the close delimiter. |
| InternetHelpers.FormPartsAppend | syzygy/kasko/internet_helpers.cc:245-251 | The parts of two runs of parameters are the parts of each run, one after the other. |
| InternetHelpers.FormPartsAt | syzygy/kasko/internet_helpers.cc:245-251 | Each parameter's part sits after the parts of the parameters before it and before the parts of those after it. |
| InternetHelpers.BodyOpensWithDelimiter | syzygy/kasko/internet_helpers.cc:245-255 | The body starts with "--", the boundary and CRLF, whatever the parameters. |
| InternetHelpers.BodyEndsWithCloseDelimiter | syzygy/kasko/internet_helpers.cc:264 | The body ends with "--", the boundary, "--" and CRLF. |
| InternetHelpers.BodyCarriesFile | syzygy/kasko/internet_helpers.cc:253-263 | The uploaded file's bytes appear unchanged right after the file part's headers. |

## Left out

- `BlockDescription::GetMaxSize` is not modelled. It depends on the sizes of instructions and data inside basic blocks, and basic blocks here carry no instructions.
- `basic_block_subgraph.cc` is not part of this model. The bodies of the factory and of the three checks are modelled from the header's comments. The procedures that decide the checks (`InsertAllFresh`, `CodeSuccessorsResolved`, `ReferrersResolved`) are this model's own.
- SubGraph.BasicBlockSubGraph.AddBlockDescription: no alignment validation is modelled. The header shows no failure path for it.
- SubGraph.BasicBlockSubGraph.AddBasicBlock: the id counter is an unbounded natural number, so wrap-around of the source's `int` is not modelled.
- SubGraph.BasicBlockSubGraph.AddBasicBlock: the header gives the failure only as "NULL on ERROR". The model's failure cases are its own choice: `kNoOffset` with a non-zero size, an offset below `kNoOffset`, and an empty or occupied range in the original block.
- SubGraph.BasicBlockSubGraph.HasValidSuccessors: the header does not define "valid successors". The model's meaning is its own choice: only code blocks placed in some description are checked, and an edge is valid when it is external or lands on a placed block.
- SubGraph.BasicBlockSubGraph.HasValidReferrers: the header does not define "accounted for". The model's meaning is its own choice: each referrer's offset lies in the range of a block that is placed in some description.
- SubGraph.BasicBlockSubGraph.AddBasicBlock: the header does not say whether a failed call consumes an id. The model leaves the counter unchanged on failure, which is a modelling choice.
- Basic blocks: their instructions, references and labels are left out. They are reduced to an id, a name, a kind, an origin, data bytes and successor edges. The original block is reduced to the offsets its referrers point at.
- The const and mutable accessors of the sub-graph are not separate members. The class's fields are read directly. Mutation through the mutable accessors is modelled by `AppendToOrder` and `SetSuccessors`.
- `DecomposeUrl` is not modelled. It is a wrapper around the operating system's `WinHttpCrackUrl`.
- InternetHelpers.GenerateMultipartHttpRequestBoundary: the two `rand()` calls become parameters. `swprintf`'s `%08X` is modelled for values below 2^32.
- Wide-to-UTF-8 conversion is modelled only where the parser compares media types. There it matters only whether the characters are ASCII, and `char` is taken to be signed, as on the Windows compiler. The body is built over the same characters as its inputs.
- ContentType.Tokenize: the splitter is the assumed behaviour of the string tokenizer. It splits on ';' outside double-quoted runs and drops empty tokens. Backslash escapes inside quotes are not modelled.
- InternetHelpers.GenerateMultipartHttpRequestBody: `std::map`'s key order is modelled as a requirement that parameter names strictly increase. Duplicate names are therefore excluded, as they are by the map.
- The assertions `DCHECK(start < length)`, `DCHECK(line[start] == delim)` and the delimiter check of `FindStringEnd`, and the non-empty boundary and part-name checks of the body, are preconditions.

=== FILE: address_space.dfy ===
/**
 * An address space over offsets of the original block: a list of
 * non-empty, pairwise disjoint ranges, each mapped to the id of the basic
 * block carved from it, kept in increasing order of start offset (the
 * iteration order of the ordered map behind core::AddressSpace).
 */
module AddressSpace {
  import opened Wrappers

  /** The half-open range [start, start + size). */
  datatype Range = Range(start: int, size: nat)

  function End(r: Range): int { r.start + r.size }

  predicate Contains(r: Range, offset: int) {
    r.start <= offset < End(r)
  }

  predicate Intersects(a: Range, b: Range) {
    a.start < End(b) && b.start < End(a)
  }

  datatype Entry = Entry(range: Range, item: nat)

  /** Every range is non-empty and each one ends before the next one starts. */
  predicate Valid(es: seq<Entry>) {
    && (forall i :: 0 <= i < |es| ==> es[i].range.size > 0)
    && (forall i, j :: 0 <= i < j < |es| ==> End(es[i].range) <= es[j].range.start)
  }

  /** No range of the space overlaps r. */
  predicate Free(es: seq<Entry>, r: Range) {
    forall e :: e in es ==> !Intersects(e.range, r)
  }

  /**
   * Inserts r mapped to x. Fails (None) when r is empty or overlaps a range
   * already present; otherwise the new space holds exactly the old entries
   * plus the new one, and stays sorted and disjoint.
   */
  function Insert(es: seq<Entry>, r: Range, x: nat): (res: Option<seq<Entry>>)
    requires Valid(es)
    ensures res.Some? <==> r.size > 0 && Free(es, r)
    ensures res.Some? ==> Valid(res.value)
    ensures res.Some? ==> |res.value| == |es| + 1
    ensures res.Some? ==> forall e :: e in res.value <==> e in es || e == Entry(r, x)
  {
    if r.size == 0 then None
    else if es == [] then Some([Entry(r, x)])
    else if End(r) <= es[0].range.start then
      assert Free(es, r) by {
        forall e | e in es ensures !Intersects(e.range, r) {
          var i :| 0 <= i < |es| && es[i] == e;
          assert i == 0 || End(es[0].range) <= es[i].range.start;
        }
      }
      ValidCons(Entry(r, x), es);
      Some([Entry(r, x)] + es)
    else if Intersects(es[0].range, r) then None
    else
      match Insert(es[1..], r, x)
      case None =>
        assert !Free(es[1..], r);
        None
      case Some(t) =>
        assert forall e :: e in es <==> e == es[0] || e in es[1..];
        assert forall e :: e in t ==> End(es[0].range) <= e.range.start by {
          forall e | e in t ensures End(es[0].range) <= e.range.start {
            if e != Entry(r, x) {
              var k :| 0 <= k < |es[1..]| && es[1..][k] == e;
              assert es[k + 1] == e;
            }
          }
        }
        ValidCons(es[0], t);
        Some([es[0]] + t)
  }

  /** A non-empty range that ends before every range of a valid space can go in front of it. */
  lemma ValidCons(head: Entry, es: seq<Entry>)
    requires Valid(es) && head.range.size > 0
    requires forall e :: e in es ==> End(head.range) <= e.range.start
    ensures Valid([head] + es)
  {
    forall j | 0 < j < |[head] + es| ensures End(head.range) <= ([head] + es)[j].range.start {
      assert ([head] + es)[j] == es[j - 1];
    }
  }

  /** The first entry whose range contains offset, scanning in address order. */
  function FindFirstIntersection(es: seq<Entry>, offset: int): (res: Option<Entry>)
    ensures res.Some? ==> res.value in es && Contains(res.value.range, offset)
    ensures res.None? ==> forall e :: e in es ==> !Contains(e.range, offset)
  {
    if es == [] then None
    else if Contains(es[0].range, offset) then Some(es[0])
    else FindFirstIntersection(es[1..], offset)
  }

  /** In a valid space at most one range contains a given offset. */
  lemma {:induction false} ContainingEntryUnique(es: seq<Entry>, offset: int, e: Entry)
    requires Valid(es)
    requires e in es && Contains(e.range, offset)
    ensures FindFirstIntersection(es, offset) == Some(e)
  {
    if es[0] != e {
      var i :| 0 <= i < |es| && es[i] == e;
      assert i > 0;
      assert End(es[0].range) <= e.range.start;
      assert es[1..][i - 1] == e;
      ContainingEntryUnique(es[1..], offset, e);
    }
  }
}

=== FILE: ascii.dfy ===
/**
 * Character-level helpers shared by the HTTP helpers: linear white space,
 * ASCII lower-casing, the find_first_of / find_first_not_of searches of
 * the string class, and decimal and hexadecimal renderings of numbers.
 * Lower-casing touches the ASCII letters only.
 */
module Ascii {
  import opened Wrappers

  /** The characters of the wide C string kHttpLws, without its terminating NUL. */
  const kHttpLws: string := " \t"

  /**
   * wcschr over a NUL-terminated wide string whose characters are str: the
   * index of the first occurrence of c, where the terminator at |str| counts
   * as part of the string.
   */
  function Wcschr(str: string, c: char, from: nat): (r: Option<nat>)
    requires from <= |str| && forall k :: 0 <= k < |str| ==> str[k] != '\0'
    decreases |str| - from
    ensures r.Some? ==> from <= r.value <= |str| && CharAt(str, r.value) == c
    ensures r.Some? ==> forall k :: from <= k < r.value ==> CharAt(str, k) != c
    ensures r.None? <==> forall k :: from <= k <= |str| ==> CharAt(str, k) != c
  {
    if CharAt(str, from) == c then Some(from)
    else if from == |str| then None
    else Wcschr(str, c, from + 1)
  }

  /**
   * The trimming test of the parser: whether wcschr finds c in kHttpLws.
   * Since wcschr also matches the terminator, this holds for NUL as well as
   * for the space and tab of linear white space (section 2.2 of RFC 2616).
   */
  predicate IsLWS(c: char): (r: bool)
    ensures r <==> c == ' ' || c == '\t' || c == '\0'
  {
    assert CharAt(kHttpLws, 0) == ' ' && CharAt(kHttpLws, 1) == '\t' && CharAt(kHttpLws, 2) == '\0';
    Wcschr(kHttpLws, c, 0).Some?
  }

  function LowerChar(c: char): char {
    if 'A' <= c <= 'Z' then (c as int + 32) as char else c
  }

  /** The string with every ASCII upper-case letter lowered. */
  function ToLower(s: string): string {
    seq(|s|, i requires 0 <= i < |s| => LowerChar(s[i]))
  }

  /** Whether a, lowered, equals b, compared one character at a time like LowerCaseEqualsASCII. */
  function LowerCaseEquals(a: string, b: string): bool {
    if a == [] || b == [] then a == [] && b == []
    else LowerChar(a[0]) == b[0] && LowerCaseEquals(a[1..], b[1..])
  }

  /** The character-wise comparison is equality of the lowered string with b. */
  lemma {:induction false} LowerCaseEqualsMeaning(a: string, b: string)
    ensures LowerCaseEquals(a, b) <==> ToLower(a) == b
  {
    if a != [] && b != [] {
      LowerCaseEqualsMeaning(a[1..], b[1..]);
      assert ToLower(a) == [LowerChar(a[0])] + ToLower(a[1..]);
    }
  }

  /** The characters of s before its first NUL: all that a reader of s as a C string sees. */
  function CStr(s: string): (r: string)
    ensures |r| <= |s| && r == s[..|r|]
    ensures forall k :: 0 <= k < |r| ==> r[k] != '\0'
    ensures |r| < |s| ==> s[|r|] == '\0'
  {
    if s == [] || s[0] == '\0' then [] else [s[0]] + CStr(s[1..])
  }

  /** Whether every character of s is ASCII, so that UTF-8 writes it as the one byte of its own value. */
  predicate IsAscii(s: string) {
    forall k :: 0 <= k < |s| ==> s[k] as int < 0x80
  }

  /** The character at i, reading the terminating NUL at the end of the string. */
  function CharAt(s: string, i: nat): char
    requires i <= |s|
  {
    if i < |s| then s[i] else '\0'
  }

  /** The first index in [from, to) holding one of chars, like std::find_first_of. */
  function FindFirstOf(s: string, chars: set<char>, from: nat, to: nat): (r: Option<nat>)
    requires to <= |s|
    decreases (to as int) - (from as int)
    ensures r.Some? ==> from <= r.value < to && s[r.value] in chars
    ensures forall k :: from <= k < (if r.Some? then r.value else to) ==> s[k] !in chars
  {
    if from >= to then None
    else if s[from] in chars then Some(from)
    else FindFirstOf(s, chars, from + 1, to)
  }

  /** The first index at or after from not holding one of chars, like find_first_not_of. */
  function FindFirstNotOf(s: string, chars: set<char>, from: nat): (r: Option<nat>)
    decreases |s| - from
    ensures r.Some? ==> from <= r.value < |s| && s[r.value] !in chars
    ensures forall k :: from <= k < (if r.Some? then r.value else |s|) ==> s[k] in chars
  {
    if from >= |s| then None
    else if s[from] !in chars then Some(from)
    else FindFirstNotOf(s, chars, from + 1)
  }

  /** An index found by a search, or the given fallback when the search returned npos. */
  function OrElse(r: Option<nat>, fallback: nat): nat {
    if r.Some? then r.value else fallback
  }

  function Min(a: nat, b: nat): nat { if a <= b then a else b }

  // ---------------------------------------------------------------------
  // Decimal

  function DecimalDigit(d: nat): char
    requires d < 10
  {
    ('0' as int + d) as char
  }

  predicate IsDigit(c: char) { '0' <= c <= '9' }

  /** The decimal rendering of n, without leading zeros, as UintToString16 writes it. */
  function Decimal(n: nat): (r: string)
    ensures |r| > 0 && forall i :: 0 <= i < |r| ==> IsDigit(r[i])
    ensures r[0] == '0' <==> n == 0
    ensures r[0] == '0' ==> |r| == 1
  {
    if n < 10 then [DecimalDigit(n)] else Decimal(n / 10) + [DecimalDigit(n % 10)]
  }

  /** The number a string of decimal digits denotes. */
  function DecimalValue(s: string): nat
    requires forall i :: 0 <= i < |s| ==> IsDigit(s[i])
  {
    if s == [] then 0
    else
      assert IsDigit(s[|s| - 1]);
      DecimalValue(s[..|s| - 1]) * 10 + (s[|s| - 1] as int - '0' as int)
  }

  /** Reading the decimal rendering back gives the number. */
  lemma {:induction false} DecimalRoundTrip(n: nat)
    ensures DecimalValue(Decimal(n)) == n
  {
    if n >= 10 {
      var r := Decimal(n);
      assert r[..|r| - 1] == Decimal(n / 10);
      DecimalRoundTrip(n / 10);
    }
  }

  // ---------------------------------------------------------------------
  // Hexadecimal

  function HexDigit(d: nat): char
    requires d < 16
  {
    if d < 10 then DecimalDigit(d) else ('A' as int + d - 10) as char
  }

  predicate IsUpperHexDigit(c: char) { IsDigit(c) || 'A' <= c <= 'F' }

  function HexDigitValue(c: char): nat
    requires IsUpperHexDigit(c)
  {
    if IsDigit(c) then c as int - '0' as int else c as int - 'A' as int + 10
  }

  function Pow16(n: nat): (r: nat)
    ensures r > 0
  {
    if n == 0 then 1 else 16 * Pow16(n - 1)
  }

  /** The last width hexadecimal digits of n, with leading zeros, as "%0<width>X" writes them. */
  function Hex(n: nat, width: nat): (r: string)
    ensures |r| == width && forall i :: 0 <= i < |r| ==> IsUpperHexDigit(r[i])
  {
    if width == 0 then [] else Hex(n / 16, width - 1) + [HexDigit(n % 16)]
  }

  function HexValue(s: string): nat
    requires forall i :: 0 <= i < |s| ==> IsUpperHexDigit(s[i])
  {
    if s == [] then 0 else HexValue(s[..|s| - 1]) * 16 + HexDigitValue(s[|s| - 1])
  }

  /** A number below 16^width is rendered in full: reading it back gives the number. */
  lemma {:induction false} HexRoundTrip(n: nat, width: nat)
    requires n < Pow16(width)
    ensures HexValue(Hex(n, width)) == n
  {
    if width > 0 {
      var r := Hex(n, width);
      assert r[..|r| - 1] == Hex(n / 16, width - 1);
      assert n / 16 < Pow16(width - 1);
      HexRoundTrip(n / 16, width - 1);
    }
  }
}

=== FILE: content_type.dfy ===
/**
 * Parsing of an HTTP Content-Type header value (section 3.7 of RFC 2616):
 * the media type, the charset parameter and the multipart boundary.
 * Positions are indices into the header value; a range [b, e) stands for
 * the pair of iterators the parser moves.
 */
module ContentType {
  import opened Wrappers
  import opened Ascii

  /**
   * The characters the searches skip: kHttpLws read as a C string by
   * find_first_not_of, so its terminating NUL is not among them (unlike the
   * trimming test IsLWS).
   */
  const SearchLws: set<char> := {' ', '\t'}

  /** The characters that end a media type or an unquoted charset. */
  const TypeTerminators: set<char> := {' ', '\t', ';', '('}

  // ---------------------------------------------------------------------
  // Quoted strings

  /**
   * The closing delimiter of a quoted string, scanning from i one character
   * at a time: a backslash makes the scan skip the character after it.
   * The length of the line when the string is not closed.
   */
  function StringEnd(line: string, i: nat, delim: char): (r: nat)
    decreases |line| - i
    ensures r <= |line|
    ensures r < |line| ==> i <= r && line[r] == delim
  {
    if i >= |line| then |line|
    else if line[i] == delim then i
    else if line[i] == '\\' then StringEnd(line, i + 2, delim)
    else StringEnd(line, i + 1, delim)
  }

  /** Jumping to the next delimiter or backslash does not change where the scan ends. */
  lemma {:induction false} StringEndSkips(line: string, i: nat, delim: char)
    requires delim != '\\'
    decreases |line| - i
    ensures StringEnd(line, i, delim) ==
            match FindFirstOf(line, {delim, '\\'}, i, |line|)
            case None => |line|
            case Some(k) => StringEnd(line, k, delim)
  {
    if i < |line| && line[i] != delim && line[i] != '\\' {
      StringEndSkips(line, i + 1, delim);
    }
  }

  /** Without backslashes the string simply ends at the first delimiter. */
  lemma {:induction false} StringEndWithoutEscapes(line: string, i: nat, delim: char)
    requires forall k :: i <= k < |line| ==> line[k] != '\\'
    decreases |line| - i
    ensures StringEnd(line, i, delim) == OrElse(FindFirstOf(line, {delim}, i, |line|), |line|)
  {
    if i < |line| && line[i] != delim {
      StringEndWithoutEscapes(line, i + 1, delim);
    }
  }

  /**
   * The index of the quote closing the string that opens at start: the first
   * delim after start not skipped by a backslash, or the length of the line.
   */
  method FindStringEnd(line: string, start: nat, delim: char) returns (end: nat)
    requires start < |line| && line[start] == delim
    requires delim == '"' || delim == '\''
    ensures start < end <= |line|
    ensures end < |line| ==> line[end] == delim
    ensures end == StringEnd(line, start + 1, delim)
  {
    var specials := {delim, '\\'};
    StringEndSkips(line, start + 1, delim);
    var found := FindFirstOf(line, specials, start + 1, |line|);
    while found.Some?
      invariant found.Some? ==> start < found.value < |line| && line[found.value] in specials
      invariant found.Some? ==> StringEnd(line, start + 1, delim) == StringEnd(line, found.value, delim)
      invariant found.None? ==> StringEnd(line, start + 1, delim) == |line|
      decreases if found.Some? then |line| - found.value else 0
    {
      end := found.value;
      if line[end] != '\\' {
        return;
      }
      StringEndSkips(line, end + 2, delim);
      found := FindFirstOf(line, specials, end + 2, |line|);
    }
    end := |line|;
  }

  // ---------------------------------------------------------------------
  // Trimming linear white space

  /** The first index of [b, e) that IsLWS rejects, or e. */
  function SkipLeading(s: string, b: nat, e: nat): (r: nat)
    requires b <= e <= |s|
    decreases e - b
    ensures b <= r <= e
  {
    if b < e && IsLWS(s[b]) then SkipLeading(s, b + 1, e) else b
  }

  /** The end of [b, e) once the run of characters IsLWS accepts is cut off its end. */
  function SkipTrailing(s: string, b: nat, e: nat): (r: nat)
    requires b <= e <= |s|
    decreases e - b
    ensures b <= r <= e
  {
    if b < e && IsLWS(s[e - 1]) then SkipTrailing(s, b, e - 1) else e
  }

  /** Whether [b, e) is [begin, end) with its leading and trailing IsLWS characters cut off. */
  predicate Trimmed(s: string, begin: nat, end: nat, b: nat, e: nat) {
    && begin <= b <= e <= end <= |s|
    && (forall k :: begin <= k < b ==> IsLWS(s[k]))
    && (forall k :: e <= k < end ==> IsLWS(s[k]))
    && (b < e ==> !IsLWS(s[b]) && !IsLWS(s[e - 1]))
  }

  /** Skipping from both ends trims the range. */
  lemma {:induction false} SkipBothTrims(s: string, begin: nat, end: nat)
    requires begin <= end <= |s|
    ensures Trimmed(s, begin, end, SkipLeading(s, begin, end), SkipTrailing(s, SkipLeading(s, begin, end), end))
  {
    SkipLeadingMeaning(s, begin, end);
    var b := SkipLeading(s, begin, end);
    SkipTrailingMeaning(s, b, end);
  }

  lemma {:induction false} SkipLeadingMeaning(s: string, b: nat, e: nat)
    requires b <= e <= |s|
    decreases e - b
    ensures forall k :: b <= k < SkipLeading(s, b, e) ==> IsLWS(s[k])
    ensures SkipLeading(s, b, e) < e ==> !IsLWS(s[SkipLeading(s, b, e)])
  {
    if b < e && IsLWS(s[b]) {
      SkipLeadingMeaning(s, b + 1, e);
    }
  }

  lemma {:induction false} SkipTrailingMeaning(s: string, b: nat, e: nat)
    requires b <= e <= |s|
    decreases e - b
    ensures forall k :: SkipTrailing(s, b, e) <= k < e ==> IsLWS(s[k])
    ensures b < SkipTrailing(s, b, e) ==> !IsLWS(s[SkipTrailing(s, b, e) - 1])
  {
    if b < e && IsLWS(s[e - 1]) {
      SkipTrailingMeaning(s, b, e - 1);
    }
  }

  /** A trailing NUL is trimmed like white space: "utf-8" followed by NUL trims to "utf-8". */
  lemma TrimmingCutsNul()
    ensures SkipTrailing("utf-8\0", 0, 6) == 5
  {
    assert IsLWS('\0') && !IsLWS('8');
  }

  /**
   * Narrows [begin, end) past leading and trailing characters IsLWS accepts
   * (space, tab and NUL): what is cut off is such characters, and what
   * remains neither starts nor ends with one.
   */
  method TrimLWS(s: string, begin: nat, end: nat) returns (b: nat, e: nat)
    requires begin <= end <= |s|
    ensures begin <= b <= e <= end
    ensures forall k :: begin <= k < b ==> IsLWS(s[k])
    ensures forall k :: e <= k < end ==> IsLWS(s[k])
    ensures b < e ==> !IsLWS(s[b]) && !IsLWS(s[e - 1])
    ensures b == SkipLeading(s, begin, end) && e == SkipTrailing(s, b, end)
  {
    b := begin;
    while b < end && IsLWS(s[b])
      invariant begin <= b <= end
      invariant forall k :: begin <= k < b ==> IsLWS(s[k])
      invariant SkipLeading(s, begin, end) == SkipLeading(s, b, end)
    {
      b := b + 1;
    }
    e := end;
    while b < e && IsLWS(s[e - 1])
      invariant b <= e <= end
      invariant forall k :: e <= k < end ==> IsLWS(s[k])
      invariant SkipTrailing(s, b, end) == SkipTrailing(s, b, e)
    {
      e := e - 1;
    }
  }

  // ---------------------------------------------------------------------
  // Parameters

  /** The range [begin, end) of one parameter between semicolons. */
  datatype Token = Token(begin: nat, end: nat)

  predicate TokensWithin(s: string, toks: seq<Token>) {
    forall t :: 0 <= t < |toks| ==> toks[t].begin <= toks[t].end <= |s|
  }

  /**
   * Splits s from i on semicolons that are not inside a double-quoted run;
   * start is where the current token began. Empty tokens are dropped.
   */
  function Tokenize(s: string, i: nat, start: nat, inQuote: bool): (toks: seq<Token>)
    requires start <= i <= |s|
    decreases |s| - i
    ensures forall t :: 0 <= t < |toks| ==> start <= toks[t].begin < toks[t].end <= |s|
  {
    if i == |s| then
      if start < i then [Token(start, i)] else []
    else if s[i] == '"' then
      Tokenize(s, i + 1, start, !inQuote)
    else if s[i] == ';' && !inQuote then
      (if start < i then [Token(start, i)] else []) + Tokenize(s, i + 1, i + 1, false)
    else
      Tokenize(s, i + 1, start, inQuote)
  }

  /** A parameter's name and value, each trimmed of the characters IsLWS accepts. */
  datatype Param = Param(nameBegin: nat, nameEnd: nat, valueBegin: nat, valueEnd: nat)

  predicate ParamWithin(s: string, p: Param) {
    p.nameBegin <= p.nameEnd <= |s| && p.valueBegin <= p.valueEnd <= |s|
  }

  /** The parameter a token holds: none when the token has no '='. */
  function ParamOf(s: string, t: Token): (p: Option<Param>)
    requires t.begin <= t.end <= |s|
    ensures p.Some? ==> ParamWithin(s, p.value)
  {
    match FindFirstOf(s, {'='}, t.begin, t.end)
    case None => None
    case Some(eq) =>
      var nb := SkipLeading(s, t.begin, eq);
      var vb := SkipLeading(s, eq + 1, t.end);
      Some(Param(nb, SkipTrailing(s, nb, eq), vb, SkipTrailing(s, vb, t.end)))
  }

  /** A token holds a parameter exactly when it has an '='. */
  lemma ParamOfNeedsEquals(s: string, t: Token)
    requires t.begin <= t.end <= |s|
    ensures ParamOf(s, t).None? <==> forall k :: t.begin <= k < t.end ==> s[k] != '='
  {
  }

  /**
   * A token is split at its first '=': the name is what lies before it and
   * the value what lies after it, each trimmed of IsLWS characters.
   */
  lemma ParamOfSplitsAtFirstEquals(s: string, t: Token, eq: nat)
    requires t.begin <= eq < t.end <= |s| && s[eq] == '='
    requires forall k :: t.begin <= k < eq ==> s[k] != '='
    ensures ParamOf(s, t).Some?
    ensures var p := ParamOf(s, t).value;
            && Trimmed(s, t.begin, eq, p.nameBegin, p.nameEnd)
            && Trimmed(s, eq + 1, t.end, p.valueBegin, p.valueEnd)
  {
    assert FindFirstOf(s, {'='}, t.begin, t.end) == Some(eq);
    SkipBothTrims(s, t.begin, eq);
    SkipBothTrims(s, eq + 1, t.end);
  }

  /** The parameter's name, compared in lower case, is name. */
  predicate Named(s: string, p: Param, name: string)
    requires ParamWithin(s, p)
  {
    LowerCaseEquals(s[p.nameBegin..p.nameEnd], name)
  }

  predicate TokenNamed(s: string, t: Token, name: string)
    requires t.begin <= t.end <= |s|
  {
    ParamOf(s, t).Some? && Named(s, ParamOf(s, t).value, name)
  }

  /** The last parameter called name among toks: later ones override earlier ones. */
  function LastParam(s: string, toks: seq<Token>, name: string): (r: Option<Param>)
    requires TokensWithin(s, toks)
    ensures r.Some? ==> ParamWithin(s, r.value)
  {
    if toks == [] then None
    else if TokenNamed(s, toks[|toks| - 1], name) then ParamOf(s, toks[|toks| - 1])
    else LastParam(s, toks[..|toks| - 1], name)
  }

  /** Token t of toks holds a parameter called name. */
  predicate NamedAt(s: string, toks: seq<Token>, t: int, name: string) {
    0 <= t < |toks| && toks[t].begin <= toks[t].end <= |s| && TokenNamed(s, toks[t], name)
  }

  /** LastParam finds a parameter exactly when some token is called name. */
  lemma {:induction false} LastParamFound(s: string, toks: seq<Token>, name: string)
    requires TokensWithin(s, toks)
    ensures LastParam(s, toks, name).Some? <==> exists t :: NamedAt(s, toks, t, name)
  {
    if toks != [] {
      var n := |toks| - 1;
      var front := toks[..n];
      if !TokenNamed(s, toks[n], name) {
        FrontWithin(s, toks, n);
        LastParamFound(s, front, name);
        if t :| NamedAt(s, toks, t, name) {
          assert front[t] == toks[t];
          assert NamedAt(s, front, t, name);
        }
        if t :| NamedAt(s, front, t, name) {
          assert front[t] == toks[t];
          assert NamedAt(s, toks, t, name);
        }
      } else {
        assert NamedAt(s, toks, n, name);
      }
    }
  }

  lemma FrontWithin(s: string, toks: seq<Token>, n: nat)
    requires TokensWithin(s, toks) && n <= |toks|
    ensures TokensWithin(s, toks[..n])
  {
    forall t | 0 <= t < n ensures toks[..n][t].begin <= toks[..n][t].end <= |s| {
      assert toks[..n][t] == toks[t];
    }
  }

  /** A last named token of a prefix stays the last one when the next token is not named. */
  lemma ExtendLastness(s: string, toks: seq<Token>, front: seq<Token>, name: string, t: int)
    requires toks != [] && TokensWithin(s, toks) && front == toks[..|toks| - 1]
    requires !NamedAt(s, toks, |toks| - 1, name)
    requires NamedAt(s, front, t, name)
    requires forall u :: t < u ==> !NamedAt(s, front, u, name)
    ensures NamedAt(s, toks, t, name) && toks[t] == front[t]
    ensures forall u :: t < u ==> !NamedAt(s, toks, u, name)
  {
    forall u | t < u ensures !NamedAt(s, toks, u, name) {
      if u < |front| { assert front[u] == toks[u]; assert !NamedAt(s, front, u, name); }
    }
  }

  /** What LastParam finds is the parameter of a token called name, and no later token is. */
  lemma {:induction false} LastParamIsLast(s: string, toks: seq<Token>, name: string)
    requires TokensWithin(s, toks)
    requires LastParam(s, toks, name).Some?
    ensures exists t :: && NamedAt(s, toks, t, name)
                        && ParamOf(s, toks[t]) == LastParam(s, toks, name)
                        && forall u :: t < u ==> !NamedAt(s, toks, u, name)
  {
    var n := |toks| - 1;
    if !TokenNamed(s, toks[n], name) {
      var front := toks[..n];
      FrontWithin(s, toks, n);
      assert LastParam(s, toks, name) == LastParam(s, front, name);
      LastParamIsLast(s, front, name);
      var t :| && NamedAt(s, front, t, name)
               && ParamOf(s, front[t]) == LastParam(s, front, name)
               && forall u :: t < u ==> !NamedAt(s, front, u, name);
      ExtendLastness(s, toks, front, name, t);
    } else {
      assert NamedAt(s, toks, n, name) && ParamOf(s, toks[n]) == LastParam(s, toks, name);
      assert forall u :: n < u ==> !NamedAt(s, toks, u, name);
    }
  }

  // ---------------------------------------------------------------------
  // The pieces of a Content-Type value

  /** Where the media type starts: the first character that is not a space or tab. */
  function TypeBegin(s: string): (r: nat)
    ensures r <= |s|
    ensures forall k :: 0 <= k < r ==> s[k] in SearchLws
    ensures r < |s| ==> s[r] !in SearchLws
  {
    Min(OrElse(FindFirstNotOf(s, SearchLws, 0), |s|), |s|)
  }

  /** Where the media type ends: the first space, tab, ';' or '(' after it starts. */
  function TypeEnd(s: string): (r: nat)
    ensures TypeBegin(s) <= r <= |s|
    ensures forall k :: TypeBegin(s) <= k < r ==> s[k] !in TypeTerminators
    ensures r < |s| ==> s[r] in TypeTerminators
  {
    OrElse(FindFirstOf(s, TypeTerminators, TypeBegin(s), |s|), |s|)
  }

  /** The media type as it is written in s. */
  function MediaType(s: string): string {
    s[TypeBegin(s)..TypeEnd(s)]
  }

  /** The parameter tokens: everything from the first ';' after the media type. */
  function ParamTokens(s: string): (toks: seq<Token>)
    ensures TokensWithin(s, toks)
    ensures (forall k :: TypeEnd(s) <= k < |s| ==> s[k] != ';') ==> toks == []
    ensures forall t :: 0 <= t < |toks| ==> TypeEnd(s) < toks[t].begin
  {
    match FindFirstOf(s, {';'}, TypeEnd(s), |s|)
    case None => []
    case Some(p) => Tokenize(s, p, p, false)
  }

  function CharsetParam(s: string): (p: Option<Param>)
    ensures p.Some? ==> ParamWithin(s, p.value)
  {
    LastParam(s, ParamTokens(s), "charset")
  }

  /**
   * The charset text within a charset parameter's value [begin, end): the
   * content of a quoted string when the value starts with a quote, otherwise
   * the value up to the first space, tab, ';' or '('.
   */
  function CharsetRange(s: string, begin: nat, end: nat): (r: (nat, nat))
    requires begin <= end <= |s|
    ensures r.0 <= r.1 <= |s|
  {
    var b := Min(OrElse(FindFirstNotOf(s, SearchLws, begin), end), end);
    var first := CharAt(s, b);
    if first == '"' || first == '\'' then
      (b + 1, StringEnd(s, b + 1, first))
    else
      (b, Min(OrElse(FindFirstOf(s, TypeTerminators, b, |s|), end), end))
  }

  function CharsetText(s: string, p: Param): string
    requires ParamWithin(s, p)
  {
    var r := CharsetRange(s, p.valueBegin, p.valueEnd);
    s[r.0..r.1]
  }

  /** b is the first index of [begin, end) outside SearchLws, or end when there is none. */
  predicate FirstNonSpace(s: string, begin: nat, end: nat, b: nat) {
    && begin <= b <= end <= |s|
    && (forall k :: begin <= k < b ==> s[k] in SearchLws)
    && (b < end ==> s[b] !in SearchLws)
  }

  /**
   * With b the first character of [begin, end) outside SearchLws (or end),
   * and c the character there: a quote opens a quoted string whose content
   * runs up to the matching quote; anything else starts text that stops
   * before the first space, tab, ';' or '(' and never passes end.
   */
  lemma CharsetRangeMeaning(s: string, begin: nat, end: nat, b: nat)
    requires FirstNonSpace(s, begin, end, b)
    ensures var r := CharsetRange(s, begin, end);
            var c := CharAt(s, b);
            && ((c == '"' || c == '\'') ==>
                  r.0 == b + 1 && r.1 == StringEnd(s, b + 1, c) && (r.1 < |s| ==> s[r.1] == c))
            && (!(c == '"' || c == '\'') ==>
                  && r.0 == b && b <= r.1 <= end
                  && (forall k :: b <= k < r.1 ==> s[k] !in TypeTerminators)
                  && (r.1 < end ==> s[r.1] in TypeTerminators))
  {
    assert Min(OrElse(FindFirstNotOf(s, SearchLws, begin), end), end) == b;
  }

  /** What the caller's boundary holds after the parameters toks are applied to it. */
  function BoundaryAfter(s: string, toks: seq<Token>, boundary: Option<string>): Option<string>
    requires TokensWithin(s, toks)
  {
    if boundary.None? then None
    else match LastParam(s, toks, "boundary")
      case None => boundary
      case Some(p) => Some(s[p.valueBegin..p.valueEnd])
  }

  /** The value of the last boundary parameter, if any. */
  function BoundaryParam(s: string): Option<string> {
    match LastParam(s, ParamTokens(s), "boundary")
    case None => None
    case Some(p) => Some(s[p.valueBegin..p.valueEnd])
  }

  // A value the parser stores: non-empty, not the wildcard type, and holding a slash.
  predicate Accepted(s: string) {
    |s| != 0 && s != "*/*" && '/' in s
  }

  /**
   * The parser's test that the caller's media type is already the type of s:
   * LowerCaseEqualsASCII of the type against the caller's media type turned
   * into UTF-8 and read as a C string, so only the part before its first NUL
   * takes part. UTF-8 writes an ASCII character as its own byte and any other
   * as bytes of 0x80 or more, which are negative as the (signed) char of the
   * Windows compiler and so never equal a UTF-16 unit: the test holds only
   * when that part is ASCII.
   */
  predicate SameMediaType(s: string, mimeType: string): (r: bool)
    ensures r <==> |mimeType| != 0 && IsAscii(CStr(mimeType)) && ToLower(MediaType(s)) == CStr(mimeType)
  {
    LowerCaseEqualsMeaning(MediaType(s), CStr(mimeType));
    |mimeType| != 0 && IsAscii(CStr(mimeType)) && LowerCaseEquals(MediaType(s), CStr(mimeType))
  }

  /**
   * A NUL ends the caller's media type for the comparison: text after it is
   * ignored, and a type that itself holds a NUL never matches.
   */
  lemma NulEndsCallerMediaType()
    ensures SameMediaType("a/b", "a/b\0junk")
    ensures !SameMediaType("a\0b/c", "a\0b/c")
  {
    assert TypeBegin("a/b") == 0 && TypeEnd("a/b") == 3;
    assert CStr("a/b\0junk") == "a/b" by {
      assert CStr("a/b\0junk")[..3] == "a/b";
    }
    assert CStr("a\0b/c") == "a";
  }

  /** LastParam over one more token. */
  lemma LastParamSnoc(s: string, toks: seq<Token>, i: nat, name: string)
    requires TokensWithin(s, toks) && i < |toks|
    ensures TokensWithin(s, toks[..i]) && TokensWithin(s, toks[..i + 1])
    ensures LastParam(s, toks[..i + 1], name) ==
            if TokenNamed(s, toks[i], name) then ParamOf(s, toks[i]) else LastParam(s, toks[..i], name)
  {
    FrontWithin(s, toks, i);
    FrontWithin(s, toks, i + 1);
    assert toks[..i + 1][..i] == toks[..i] && toks[..i + 1][i] == toks[i];
  }

  /** Splits one token at its first '=' and trims the name and the value. */
  method ParseParameter(s: string, t: Token) returns (p: Option<Param>)
    requires t.begin <= t.end <= |s|
    ensures p == ParamOf(s, t)
    ensures p.None? <==> forall k :: t.begin <= k < t.end ==> s[k] != '='
    ensures p.Some? ==> ParamWithin(s, p.value)
    ensures forall eq :: t.begin <= eq < t.end && s[eq] == '=' && (forall k :: t.begin <= k < eq ==> s[k] != '=') ==>
              p.Some? && Trimmed(s, t.begin, eq, p.value.nameBegin, p.value.nameEnd) &&
              Trimmed(s, eq + 1, t.end, p.value.valueBegin, p.value.valueEnd)
  {
    ParamOfNeedsEquals(s, t);
    forall eq | t.begin <= eq < t.end && s[eq] == '=' && (forall k :: t.begin <= k < eq ==> s[k] != '=')
      ensures ParamOf(s, t).Some? && Trimmed(s, t.begin, eq, ParamOf(s, t).value.nameBegin, ParamOf(s, t).value.nameEnd) &&
              Trimmed(s, eq + 1, t.end, ParamOf(s, t).value.valueBegin, ParamOf(s, t).value.valueEnd)
    {
      ParamOfSplitsAtFirstEquals(s, t, eq);
    }
    var equalsSign := FindFirstOf(s, {'='}, t.begin, t.end);
    if equalsSign.None? {
      return None;
    }
    var nameBegin, nameEnd := TrimLWS(s, t.begin, equalsSign.value);
    var valueBegin, valueEnd := TrimLWS(s, equalsSign.value + 1, t.end);
    p := Some(Param(nameBegin, nameEnd, valueBegin, valueEnd));
  }

  /**
   * The parameter loop: remembers the value range of the last charset
   * parameter and writes each boundary parameter's value into the caller's
   * boundary when there is one (None stands for a NULL argument).
   */
  method ScanParameters(s: string, toks: seq<Token>, boundary: Option<string>)
    returns (typeHasCharset: bool, charsetVal: nat, charsetEnd: nat, boundary': Option<string>)
    requires TokensWithin(s, toks)
    ensures typeHasCharset <==> LastParam(s, toks, "charset").Some?
    ensures typeHasCharset ==>
            charsetVal == LastParam(s, toks, "charset").value.valueBegin &&
            charsetEnd == LastParam(s, toks, "charset").value.valueEnd
    ensures !typeHasCharset ==> charsetVal == 0 && charsetEnd == 0
    ensures boundary' == BoundaryAfter(s, toks, boundary)
  {
    charsetVal, charsetEnd := 0, 0;
    typeHasCharset := false;
    boundary' := boundary;
    FrontWithin(s, toks, 0);
    for i := 0 to |toks|
      invariant TokensWithin(s, toks[..i])
      invariant typeHasCharset <==> LastParam(s, toks[..i], "charset").Some?
      invariant typeHasCharset ==>
                charsetVal == LastParam(s, toks[..i], "charset").value.valueBegin &&
                charsetEnd == LastParam(s, toks[..i], "charset").value.valueEnd
      invariant !typeHasCharset ==> charsetVal == 0 && charsetEnd == 0
      invariant boundary' == BoundaryAfter(s, toks[..i], boundary)
    {
      LastParamSnoc(s, toks, i, "charset");
      LastParamSnoc(s, toks, i, "boundary");
      var p := ParseParameter(s, toks[i]);
      if p.None? {
        continue;
      }
      var param := p.value;
      if LowerCaseEquals(s[param.nameBegin..param.nameEnd], "charset") {
        charsetVal, charsetEnd := param.valueBegin, param.valueEnd;
        typeHasCharset := true;
      } else if LowerCaseEquals(s[param.nameBegin..param.nameEnd], "boundary") {
        if boundary'.Some? {
          boundary' := Some(s[param.valueBegin..param.valueEnd]);
        }
      }
    }
    assert toks[..|toks|] == toks;
  }

  /** Narrows a charset value to the text that names the charset. */
  method TrimCharset(s: string, begin: nat, end: nat) returns (charsetVal: nat, charsetEnd: nat)
    requires begin <= end <= |s|
    ensures (charsetVal, charsetEnd) == CharsetRange(s, begin, end)
    ensures forall b: nat :: FirstNonSpace(s, begin, end, b) ==>
              var c := CharAt(s, b);
              && ((c == '"' || c == '\'') ==>
                    charsetVal == b + 1 && (charsetEnd < |s| ==> s[charsetEnd] == c))
              && (!(c == '"' || c == '\'') ==>
                    && charsetVal == b && b <= charsetEnd <= end
                    && (forall k :: b <= k < charsetEnd ==> s[k] !in TypeTerminators)
                    && (charsetEnd < end ==> s[charsetEnd] in TypeTerminators))
  {
    forall b: nat | FirstNonSpace(s, begin, end, b) {
      CharsetRangeMeaning(s, begin, end, b);
    }
    charsetEnd := end;
    charsetVal := Min(OrElse(FindFirstNotOf(s, SearchLws, begin), charsetEnd), charsetEnd);
    var firstChar := CharAt(s, charsetVal);
    if firstChar == '"' || firstChar == '\'' {
      charsetEnd := FindStringEnd(s, charsetVal, firstChar);
      charsetVal := charsetVal + 1;
    } else {
      charsetEnd := Min(OrElse(FindFirstOf(s, TypeTerminators, charsetVal, |s|), charsetEnd), charsetEnd);
    }
  }

  /**
   * Parses s into the caller's media type, charset and had-charset flag, and
   * into its boundary when the caller passed one (None stands for a NULL
   * boundary argument). The first three change only for an accepted value;
   * the boundary is written whatever the value.
   */
  method ParseContentType(s: string, mimeType: string, charset: string, hadCharset: bool, boundary: Option<string>)
    returns (mimeType': string, charset': string, hadCharset': bool, boundary': Option<string>)
    ensures !Accepted(s) ==> mimeType' == mimeType && charset' == charset && hadCharset' == hadCharset
    ensures Accepted(s) ==> mimeType' == if SameMediaType(s, mimeType) then mimeType else ToLower(MediaType(s))
    ensures Accepted(s) ==> ToLower(MediaType(s)) == CStr(mimeType') || mimeType' == ToLower(MediaType(s))
    ensures Accepted(s) ==> hadCharset' == (hadCharset || CharsetParam(s).Some?)
    ensures Accepted(s) && CharsetParam(s).Some? ==> charset' == ToLower(CharsetText(s, CharsetParam(s).value))
    ensures Accepted(s) && CharsetParam(s).None? ==>
            charset' == if hadCharset && !SameMediaType(s, mimeType) then [] else charset
    ensures boundary.None? ==> boundary' == None
    ensures boundary.Some? ==> boundary' == if BoundaryParam(s).Some? then BoundaryParam(s) else boundary
  {
    var typeVal := Min(OrElse(FindFirstNotOf(s, SearchLws, 0), |s|), |s|);
    var typeEnd := OrElse(FindFirstOf(s, TypeTerminators, typeVal, |s|), |s|);

    var toks: seq<Token> := [];
    var paramStart := FindFirstOf(s, {';'}, typeEnd, |s|);
    if paramStart.Some? {
      toks := Tokenize(s, paramStart.value, paramStart.value, false);
    }
    var typeHasCharset, charsetVal, charsetEnd;
    typeHasCharset, charsetVal, charsetEnd, boundary' := ScanParameters(s, toks, boundary);

    if typeHasCharset {
      charsetVal, charsetEnd := TrimCharset(s, charsetVal, charsetEnd);
    }

    if |s| != 0 && s != "*/*" && '/' in s {
      var narrow := CStr(mimeType);
      LowerCaseEqualsMeaning(s[typeVal..typeEnd], narrow);
      var eq := |mimeType| != 0 && IsAscii(narrow) && LowerCaseEquals(s[typeVal..typeEnd], narrow);
      mimeType' := if eq then mimeType else ToLower(s[typeVal..typeEnd]);
      if (!eq && hadCharset) || typeHasCharset {
        hadCharset' := true;
        charset' := ToLower(s[charsetVal..charsetEnd]);
      } else {
        hadCharset', charset' := hadCharset, charset;
      }
    } else {
      mimeType', charset', hadCharset' := mimeType, charset, hadCharset;
    }
  }
}

=== FILE: internet_helpers.dfy ===
/**
 * URL composition and the multipart/form-data request of RFC 2388: the
 * boundary, the Content-Type header line announcing it and the request
 * body, whose delimiter lines follow section 5.1.1 of RFC 2046.
 */
module InternetHelpers {
  import opened Wrappers
  import opened Ascii
  import CT = ContentType

  type uint16 = x: int | 0 <= x < 0x1_0000

  // ---------------------------------------------------------------------
  // URLs

  function Scheme(secure: bool): string {
    if secure then "https://" else "http://"
  }

  /** The port a scheme implies: 443 for https, 80 for http. */
  function DefaultPort(secure: bool): uint16 {
    if secure then 443 else 80
  }

  /**
   * The URL for host, port and path: the scheme, the host, the port unless it
   * is the scheme's default, then the path.
   */
  function ComposeUrl(host: string, port: uint16, path: string, secure: bool): (url: string)
    ensures |url| >= |Scheme(secure)| + |host| + |path|
    ensures url[..|Scheme(secure)|] == Scheme(secure)
    ensures url[|Scheme(secure)|..|Scheme(secure)| + |host|] == host
    ensures url[|url| - |path|..] == path
    ensures |url| == |Scheme(secure)| + |host| + |path| <==> port == DefaultPort(secure)
  {
    if secure then
      if port == 443 then "https://" + host + path
      else
        UrlSlices("https://", host, [':'] + Decimal(port), path);
        "https://" + host + [':'] + Decimal(port) + path
    else
      if port == 80 then "http://" + host + path
      else
        UrlSlices("http://", host, [':'] + Decimal(port), path);
        "http://" + host + [':'] + Decimal(port) + path
  }

  /** Scheme, host and path can be sliced back out of a URL, whatever sits between host and path. */
  lemma UrlSlices(scheme: string, host: string, port: string, path: string)
    ensures var url := scheme + host + port + path;
            && |url| == |scheme| + |host| + |port| + |path|
            && url[..|scheme|] == scheme
            && url[|scheme|..|scheme| + |host|] == host
            && url[|url| - |path|..] == path
  {
  }

  /** The scheme's default port is left out of the URL. */
  lemma ComposeUrlOmitsDefaultPort(host: string, path: string, secure: bool)
    ensures ComposeUrl(host, DefaultPort(secure), path, secure) == Scheme(secure) + host + path
  {
  }

  /**
   * Any other port is written after a colon in decimal, and the digits
   * between the colon and the path read back as the port.
   */
  lemma ComposeUrlWritesOtherPort(host: string, port: uint16, path: string, secure: bool)
    requires port != DefaultPort(secure)
    ensures var url := ComposeUrl(host, port, path, secure);
            var colon := |Scheme(secure)| + |host|;
            && url[..colon] == Scheme(secure) + host
            && url[colon] == ':'
            && url[|url| - |path|..] == path
            && (forall i :: colon < i < |url| - |path| ==> IsDigit(url[i]))
            && DecimalValue(url[colon + 1..|url| - |path|]) == port
  {
    var url := ComposeUrl(host, port, path, secure);
    var colon := |Scheme(secure)| + |host|;
    assert url == Scheme(secure) + host + [':'] + Decimal(port) + path;
    assert url[colon + 1..|url| - |path|] == Decimal(port);
    DecimalRoundTrip(port);
  }

  /** The digits of any other port are its canonical rendering: "0" for port 0, no leading zero otherwise. */
  lemma ComposeUrlWritesDecimalPort(host: string, port: uint16, path: string, secure: bool)
    requires port != DefaultPort(secure)
    ensures var url := ComposeUrl(host, port, path, secure);
            var colon := |Scheme(secure)| + |host|;
            colon < |url| - |path| && url[colon + 1..|url| - |path|] == Decimal(port)
  {
    var url := ComposeUrl(host, port, path, secure);
    assert url == Scheme(secure) + host + [':'] + Decimal(port) + path;
  }

  // ---------------------------------------------------------------------
  // The boundary and the Content-Type header

  /** The 27 dashes a boundary starts with. */
  const kBoundaryPrefix: string := "---------------------------"

  /**
   * The boundary built from two random words: the dashes, then each word as
   * eight upper-case hexadecimal digits ("%08X").
   */
  function GenerateMultipartHttpRequestBoundary(r0: nat, r1: nat): (b: string)
    requires r0 < 0x1_0000_0000 && r1 < 0x1_0000_0000
    ensures |b| == 27 + 16
    ensures forall i :: 0 <= i < 27 ==> b[i] == '-'
    ensures forall i :: 27 <= i < |b| ==> IsUpperHexDigit(b[i])
  {
    kBoundaryPrefix + Hex(r0, 8) + Hex(r1, 8)
  }

  /** Both random words can be read back from the boundary. */
  lemma BoundaryRoundTrip(r0: nat, r1: nat)
    requires r0 < 0x1_0000_0000 && r1 < 0x1_0000_0000
    ensures var b := GenerateMultipartHttpRequestBoundary(r0, r1);
            HexValue(b[27..35]) == r0 && HexValue(b[35..]) == r1
  {
    var b := GenerateMultipartHttpRequestBoundary(r0, r1);
    assert Pow16(8) == 0x1_0000_0000 by {
      assert Pow16(4) == 0x1_0000;
    }
    assert b[27..35] == Hex(r0, 8) && b[35..] == Hex(r1, 8);
    HexRoundTrip(r0, 8);
    HexRoundTrip(r1, 8);
  }

  const kContentTypeName: string := "Content-Type: "
  const kMultipartType: string := "multipart/form-data; boundary="

  /** The header line announcing a multipart/form-data body with the given boundary. */
  function GenerateMultipartHttpRequestContentTypeHeader(boundary: string): (header: string)
    ensures |header| == |kContentTypeName| + |kMultipartType| + |boundary|
    ensures header[..|kContentTypeName|] == kContentTypeName
    ensures header[|kContentTypeName|..|kContentTypeName| + |kMultipartType|] == kMultipartType
    ensures header[|header| - |boundary|..] == boundary
  {
    kContentTypeName + kMultipartType + boundary
  }

  /**
   * A boundary the parameter tokenizer leaves whole: not empty, with no ';'
   * or '"' to split or quote it and no space, tab or NUL for trimming to cut off.
   */
  predicate PlainBoundary(b: string) {
    b != [] && forall i :: 0 <= i < |b| ==> b[i] != ';' && b[i] != '"' && !IsLWS(b[i])
  }

  lemma GeneratedBoundaryIsPlain(r0: nat, r1: nat)
    requires r0 < 0x1_0000_0000 && r1 < 0x1_0000_0000
    ensures PlainBoundary(GenerateMultipartHttpRequestBoundary(r0, r1))
  {
  }

  /**
   * The value of the header line, read back by the Content-Type parser, is
   * accepted, has media type multipart/form-data and yields the boundary.
   */
  lemma ContentTypeHeaderRoundTrip(boundary: string)
    requires PlainBoundary(boundary)
    ensures var header := GenerateMultipartHttpRequestContentTypeHeader(boundary);
            var value := header[|kContentTypeName|..];
            && header[..|kContentTypeName|] == kContentTypeName
            && CT.Accepted(value)
            && CT.MediaType(value) == "multipart/form-data"
            && CT.BoundaryParam(value) == Some(boundary)
  {
    var header := GenerateMultipartHttpRequestContentTypeHeader(boundary);
    var s := kMultipartType + boundary;
    assert header[|kContentTypeName|..] == s;
    assert header[..|kContentTypeName|] == kContentTypeName;
    MultipartValueType(boundary);
    MultipartValueBoundary(boundary);
  }

  lemma MultipartValueType(boundary: string)
    ensures var s := kMultipartType + boundary;
            CT.Accepted(s) && CT.TypeEnd(s) == 19 && CT.MediaType(s) == "multipart/form-data"
  {
    var s := kMultipartType + boundary;
    assert CT.TypeBegin(s) == 0 by {
      assert FindFirstNotOf(s, CT.SearchLws, 0) == Some(0);
    }
    assert CT.TypeEnd(s) == 19 by {
      FindFirstOfIs(s, CT.TypeTerminators, 0, |s|, 19);
    }
    assert s[0..19] == "multipart/form-data";
    assert s[9] in s;
  }

  lemma MultipartValueBoundary(boundary: string)
    requires PlainBoundary(boundary)
    ensures CT.BoundaryParam(kMultipartType + boundary) == Some(boundary)
  {
    var s := kMultipartType + boundary;
    var tok := CT.Token(20, |s|);
    var p := CT.Param(21, 29, 30, |s|);
    MultipartValueTokens(boundary);
    MultipartValueParam(boundary);
    var toks := CT.ParamTokens(s);
    assert toks == [tok];
    assert CT.TokenNamed(s, toks[|toks| - 1], "boundary");
    assert CT.LastParam(s, toks, "boundary") == Some(p);
    assert s[30..|s|] == boundary;
  }

  lemma MultipartValueTokens(boundary: string)
    requires PlainBoundary(boundary)
    ensures var s := kMultipartType + boundary;
            CT.ParamTokens(s) == [CT.Token(20, |s|)]
  {
    var s := kMultipartType + boundary;
    MultipartValueType(boundary);
    MultipartValueSemicolon(boundary);
    MultipartValueTail(boundary);
    TokenizePlain(s, 20, 20);
    assert CT.ParamTokens(s) == CT.Tokenize(s, 19, 19, false);
    assert CT.Tokenize(s, 19, 19, false) == [] + CT.Tokenize(s, 20, 20, false);
  }

  /** The only ';' of the value is the one after the media type. */
  lemma MultipartValueSemicolon(boundary: string)
    requires PlainBoundary(boundary)
    ensures var s := kMultipartType + boundary;
            s[19] == ';' && FindFirstOf(s, {';'}, 19, |s|) == Some(19)
  {
    var s := kMultipartType + boundary;
    FindFirstOfIs(s, {';'}, 19, |s|, 19);
  }

  /** After the ';' the value holds no ';' or '"'. */
  lemma MultipartValueTail(boundary: string)
    requires PlainBoundary(boundary)
    ensures var s := kMultipartType + boundary;
            forall k :: 20 <= k < |s| ==> s[k] != ';' && s[k] != '"'
  {
    var s := kMultipartType + boundary;
    assert s[20..30] == " boundary=";
    forall k | 30 <= k < |s| ensures s[k] != ';' && s[k] != '"' {
      assert s[k] == boundary[k - 30];
    }
  }

  lemma MultipartValueParam(boundary: string)
    requires PlainBoundary(boundary)
    ensures var s := kMultipartType + boundary;
            && CT.ParamOf(s, CT.Token(20, |s|)) == Some(CT.Param(21, 29, 30, |s|))
            && CT.TokenNamed(s, CT.Token(20, |s|), "boundary")
  {
    var s := kMultipartType + boundary;
    FindFirstOfIs(s, {'='}, 20, |s|, 29);
    MultipartValueTrims(boundary);
    assert CT.ParamOf(s, CT.Token(20, |s|)) == Some(CT.Param(21, 29, 30, |s|));
    assert s[21..29] == "boundary";
  }

  lemma MultipartValueTrims(boundary: string)
    requires PlainBoundary(boundary)
    ensures var s := kMultipartType + boundary;
            && CT.SkipLeading(s, 20, 29) == 21 && CT.SkipTrailing(s, 21, 29) == 29
            && CT.SkipLeading(s, 30, |s|) == 30 && CT.SkipTrailing(s, 30, |s|) == |s|
  {
    var s := kMultipartType + boundary;
    assert IsLWS(s[20]) && !IsLWS(s[21]) && !IsLWS(s[28]);
    assert !IsLWS(s[30]) && !IsLWS(s[|s| - 1]);
  }

  /** The first index of the range holding one of chars is what FindFirstOf returns. */
  lemma FindFirstOfIs(s: string, chars: set<char>, from: nat, to: nat, k: nat)
    requires from <= k < to <= |s| && s[k] in chars
    requires forall j :: from <= j < k ==> s[j] !in chars
    ensures FindFirstOf(s, chars, from, to) == Some(k)
  {
  }

  /** A stretch to the end of s with no ';' or '"' is one token. */
  lemma {:induction false} TokenizePlain(s: string, i: nat, start: nat)
    requires start <= i <= |s|
    requires forall k :: i <= k < |s| ==> s[k] != ';' && s[k] != '"'
    decreases |s| - i
    ensures CT.Tokenize(s, i, start, false) == if start < |s| then [CT.Token(start, |s|)] else []
  {
    if i < |s| {
      TokenizePlain(s, i + 1, start);
    }
  }

  // ---------------------------------------------------------------------
  // The request body

  /** The strict order of the parameters' map: character by character, a prefix first. */
  predicate StringLess(a: string, b: string) {
    (|a| < |b| && a == b[..|a|]) ||
    exists k :: 0 <= k < |a| && k < |b| && a[..k] == b[..k] && a[k] < b[k]
  }

  /** Parameters in the order the map iterates them: by strictly increasing name. */
  predicate InKeyOrder(parameters: seq<(string, string)>) {
    forall i :: 0 < i < |parameters| ==> StringLess(parameters[i - 1].0, parameters[i].0)
  }

  /** A delimiter line: two dashes, the boundary, a line break. */
  function Delimiter(boundary: string): string {
    "--" + boundary + "\r\n"
  }

  /** The close delimiter that ends the body. */
  function CloseDelimiter(boundary: string): string {
    "--" + boundary + "--\r\n"
  }

  /** One form-data part for a name and value. */
  function FormPart(boundary: string, name: string, value: string): string {
    Delimiter(boundary) + FormDisposition(name) + value + "\r\n"
  }

  /** The header line naming a form field, and the blank line after it. */
  function FormDisposition(name: string): string {
    "Content-Disposition: form-data; name=\"" + name + "\"\r\n\r\n"
  }

  /** The parts of the parameters, in order. */
  function FormParts(boundary: string, parameters: seq<(string, string)>): string {
    if parameters == [] then []
    else
      var last := parameters[|parameters| - 1];
      FormParts(boundary, parameters[..|parameters| - 1]) + FormPart(boundary, last.0, last.1)
  }

  /** The headers of the file part, up to the blank line before its content. */
  function FilePartHeader(boundary: string, filePartName: string): string {
    Delimiter(boundary) +
    "Content-Disposition: form-data; name=\"" + filePartName + "\"; filename=\"" + filePartName + "\"\r\n" +
    "Content-Type: application/octet-stream\r\n" +
    "\r\n"
  }

  /** The whole body: the form parts, the file part, the close delimiter. */
  function MultipartBody(parameters: seq<(string, string)>, uploadFile: string,
                         filePartName: string, boundary: string): string
  {
    FormParts(boundary, parameters) + FilePartHeader(boundary, filePartName) + uploadFile + "\r\n" +
    CloseDelimiter(boundary)
  }

  /** Builds the multipart/form-data body of an upload, appending part after part. */
  method GenerateMultipartHttpRequestBody(parameters: seq<(string, string)>, uploadFile: string,
                                          filePartName: string, boundary: string) returns (body: string)
    requires boundary != [] && filePartName != []
    requires InKeyOrder(parameters)
    ensures body == MultipartBody(parameters, uploadFile, filePartName, boundary)
  {
    body := [];
    for i := 0 to |parameters|
      invariant body == FormParts(boundary, parameters[..i])
    {
      assert parameters[..i + 1][..i] == parameters[..i];
      body := body + Delimiter(boundary);
      body := body + FormDisposition(parameters[i].0) + parameters[i].1 + "\r\n";
    }
    assert parameters[..|parameters|] == parameters;
    body := body + FilePartHeader(boundary, filePartName);
    body := body + uploadFile;
    body := body + "\r\n";
    body := body + CloseDelimiter(boundary);
  }

  /** The parts of two runs of parameters are the parts of each, one after the other. */
  lemma {:induction false} FormPartsAppend(boundary: string, p: seq<(string, string)>, q: seq<(string, string)>)
    ensures FormParts(boundary, p + q) == FormParts(boundary, p) + FormParts(boundary, q)
  {
    if q != [] {
      var n := |q| - 1;
      assert (p + q)[..|p + q| - 1] == p + q[..n];
      FormPartsAppend(boundary, p, q[..n]);
    } else {
      assert p + q == p;
    }
  }

  /** Parameter i's part sits between the parts of those before it and those after it. */
  lemma FormPartsAt(boundary: string, parameters: seq<(string, string)>, i: nat)
    requires i < |parameters|
    ensures FormParts(boundary, parameters) ==
            FormParts(boundary, parameters[..i]) + FormPart(boundary, parameters[i].0, parameters[i].1) +
            FormParts(boundary, parameters[i + 1..])
  {
    assert parameters == parameters[..i] + [parameters[i]] + parameters[i + 1..];
    FormPartsAppend(boundary, parameters[..i] + [parameters[i]], parameters[i + 1..]);
    FormPartsAppend(boundary, parameters[..i], [parameters[i]]);
    assert FormParts(boundary, [parameters[i]]) == FormPart(boundary, parameters[i].0, parameters[i].1) by {
      assert [parameters[i]][..0] == [];
    }
  }

  /** The body opens with a delimiter line, whatever the parameters. */
  lemma BodyOpensWithDelimiter(parameters: seq<(string, string)>, uploadFile: string,
                               filePartName: string, boundary: string)
    ensures var body := MultipartBody(parameters, uploadFile, filePartName, boundary);
            |body| >= |Delimiter(boundary)| && body[..|Delimiter(boundary)|] == Delimiter(boundary)
  {
    var d := Delimiter(boundary);
    var parts := FormParts(boundary, parameters);
    var rest := FilePartHeader(boundary, filePartName) + uploadFile + "\r\n" + CloseDelimiter(boundary);
    assert MultipartBody(parameters, uploadFile, filePartName, boundary) == parts + rest;
    FilePartOpensWithDelimiter(boundary, filePartName, uploadFile + "\r\n" + CloseDelimiter(boundary));
    if parameters == [] {
      assert parts == [];
      assert parts + rest == rest;
    } else {
      FormPartsOpenWithDelimiter(boundary, parameters);
      PrefixOfConcat(parts, rest, |d|);
    }
  }

  /** The file part, and whatever follows it, opens with a delimiter line. */
  lemma FilePartOpensWithDelimiter(boundary: string, filePartName: string, tail: string)
    ensures var s := FilePartHeader(boundary, filePartName) + tail;
            |s| >= |Delimiter(boundary)| && s[..|Delimiter(boundary)|] == Delimiter(boundary)
  {
    var d := Delimiter(boundary);
    var more := FilePartHeader(boundary, filePartName)[|d|..] + tail;
    assert FilePartHeader(boundary, filePartName) + tail == d + more;
    PrefixOfConcat(d, more, |d|);
  }

  /** The form parts of a non-empty run of parameters open with a delimiter line. */
  lemma {:induction false} FormPartsOpenWithDelimiter(boundary: string, parameters: seq<(string, string)>)
    requires parameters != []
    ensures var parts := FormParts(boundary, parameters);
            |parts| >= |Delimiter(boundary)| && parts[..|Delimiter(boundary)|] == Delimiter(boundary)
  {
    var d := Delimiter(boundary);
    var init := parameters[..|parameters| - 1];
    var last := parameters[|parameters| - 1];
    var part := FormPart(boundary, last.0, last.1);
    assert FormParts(boundary, parameters) == FormParts(boundary, init) + part;
    if init == [] {
      assert FormParts(boundary, init) + part == part;
      PrefixOfConcat(d, FormDisposition(last.0) + last.1 + "\r\n", |d|);
      assert part == d + (FormDisposition(last.0) + last.1 + "\r\n");
    } else {
      FormPartsOpenWithDelimiter(boundary, init);
      PrefixOfConcat(FormParts(boundary, init), part, |d|);
    }
  }

  /** The body ends with the close delimiter. */
  lemma BodyEndsWithCloseDelimiter(parameters: seq<(string, string)>, uploadFile: string,
                                   filePartName: string, boundary: string)
    ensures var body := MultipartBody(parameters, uploadFile, filePartName, boundary);
            |body| >= |CloseDelimiter(boundary)| &&
            body[|body| - |CloseDelimiter(boundary)|..] == CloseDelimiter(boundary)
  {
  }

  /** The uploaded file is carried intact right after the file part's headers. */
  lemma BodyCarriesFile(parameters: seq<(string, string)>, uploadFile: string,
                        filePartName: string, boundary: string)
    ensures var body := MultipartBody(parameters, uploadFile, filePartName, boundary);
            var start := |FormParts(boundary, parameters)| + |FilePartHeader(boundary, filePartName)|;
            start + |uploadFile| <= |body| && body[start..start + |uploadFile|] == uploadFile
  {
    var front := FormParts(boundary, parameters) + FilePartHeader(boundary, filePartName);
    var back := "\r\n" + CloseDelimiter(boundary);
    assert MultipartBody(parameters, uploadFile, filePartName, boundary) == front + uploadFile + back;
  }

  lemma PrefixOfConcat(a: string, b: string, n: nat)
    requires n <= |a|
    ensures (a + b)[..n] == a[..n]
  {
  }
}

=== FILE: subgraph.dfy ===
/**
 * The basic-block sub-graph: the store of basic blocks keyed by id, the
 * address space recording where each block came from in the original
 * block, the list of output-block descriptions, and the three structural
 * checks that together decide whether the composition is valid.
 */
module SubGraph {
  import opened Wrappers
  import AS = AddressSpace

  /** The offset of a generated basic block, which has no original bytes. */
  const kNoOffset: int := -1

  datatype BasicBlockType = BasicCodeBlock | BasicDataBlock | BasicPaddingBlock

  /** Where control may go after a code basic block. */
  datatype Successor = Internal(target: nat) | External

  datatype BasicBlock = BasicBlock(
    id: nat,
    name: string,
    kind: BasicBlockType,
    offset: int,
    size: nat,
    data: seq<bv8>,
    successors: seq<Successor>)

  /** The range of the original block a basic block was carved from. */
  function Origin(b: BasicBlock): AS.Range {
    AS.Range(b.offset, b.size)
  }

  /** A generated block has no offset and no size; a carved one covers bytes. */
  predicate WellFormedOrigin(b: BasicBlock) {
    (b.offset == kNoOffset && b.size == 0) || (b.offset >= 0 && b.size > 0)
  }

  datatype BlockType = CodeBlock | DataBlock

  /** One block to be built, with the ids of its basic blocks in emission order. */
  datatype BlockDescription = BlockDescription(
    name: string,
    blockType: BlockType,
    section: int,
    alignment: nat,
    attributes: nat,
    order: seq<nat>)

  /** The original block, reduced to the offsets its referrers point at. */
  datatype OriginalBlock = OriginalBlock(referrers: seq<int>)

  /** The invariant that the factory methods maintain. */
  predicate Consistent(blocks: map<nat, BasicBlock>, space: seq<AS.Entry>,
                       descs: seq<BlockDescription>, nextId: nat): (r: bool)
    ensures r ==> nextId !in blocks
    ensures r ==> forall e :: e in space ==> e.range.size > 0 && e.item in blocks && blocks[e.item].offset >= 0
  {
    && (forall id :: id in blocks ==> id < nextId && blocks[id].id == id && WellFormedOrigin(blocks[id]))
    && AS.Valid(space)
    && (forall e :: e in space ==> e.item in blocks && Origin(blocks[e.item]) == e.range)
    && (forall id :: id in blocks && blocks[id].offset != kNoOffset ==> AS.Entry(Origin(blocks[id]), id) in space)
    && (forall k, i :: 0 <= k < |descs| && 0 <= i < |descs[k].order| ==> descs[k].order[i] in blocks)
  }

  /** Two basic blocks with real origins never claim overlapping bytes. */
  lemma {:induction false} OriginsDisjoint(blocks: map<nat, BasicBlock>, space: seq<AS.Entry>,
                                           descs: seq<BlockDescription>, nextId: nat, a: nat, b: nat)
    requires Consistent(blocks, space, descs, nextId)
    requires a in blocks && b in blocks && a != b
    requires blocks[a].offset != kNoOffset && blocks[b].offset != kNoOffset
    ensures !AS.Intersects(Origin(blocks[a]), Origin(blocks[b]))
  {
    var ea, eb := AS.Entry(Origin(blocks[a]), a), AS.Entry(Origin(blocks[b]), b);
    assert ea in space && eb in space;
    var i :| 0 <= i < |space| && space[i] == ea;
    var j :| 0 <= j < |space| && space[j] == eb;
    assert i != j;
    if i < j {
      assert AS.End(space[i].range) <= space[j].range.start;
    } else {
      assert AS.End(space[j].range) <= space[i].range.start;
    }
  }

  // ---------------------------------------------------------------------
  // Lookup

  /**
   * The block that begins at base: the range containing base, if it starts
   * exactly there.
   */
  function BlockAt(space: seq<AS.Entry>, base: int): Option<nat> {
    match AS.FindFirstIntersection(space, base)
    case None => None
    case Some(e) => if e.range.start == base then Some(e.item) else None
  }

  /** BlockAt finds a block exactly when some mapped range starts at base. */
  lemma BlockAtCorrect(space: seq<AS.Entry>, base: int, id: nat)
    requires AS.Valid(space)
    ensures BlockAt(space, base) == Some(id) <==>
            exists e :: e in space && e.range.start == base && e.item == id
  {
    if e :| e in space && e.range.start == base && e.item == id {
      AS.ContainingEntryUnique(space, base, e);
    }
  }

  // ---------------------------------------------------------------------
  // Check 1: each basic block is used in at most one description

  /** The ids of all descriptions' orderings, one after the other. */
  function Flatten(descs: seq<BlockDescription>): seq<nat> {
    if descs == [] then [] else descs[0].order + Flatten(descs[1..])
  }

  predicate NoDuplicates(ids: seq<nat>) {
    forall i, j :: 0 <= i < j < |ids| ==> ids[i] != ids[j]
  }

  /**
   * The position-wise meaning of check 1: no id occupies two positions,
   * whether in two descriptions or twice in the same one.
   */
  predicate AtMostOneDescription(descs: seq<BlockDescription>) {
    && (forall k :: 0 <= k < |descs| ==> NoDuplicates(descs[k].order))
    && (forall k, l, i, j :: 0 <= k < l < |descs| && 0 <= i < |descs[k].order| && 0 <= j < |descs[l].order|
          ==> descs[k].order[i] != descs[l].order[j])
  }

  /**
   * This model's procedure for check 1: insert every id into a set of those
   * seen so far and fail on the first insertion that finds it already there.
   */
  function InsertAllFresh(ids: seq<nat>, seen: set<nat>): (ok: bool)
    ensures ok <==> NoDuplicates(ids) && forall i :: 0 <= i < |ids| ==> ids[i] !in seen
  {
    if ids == [] then true
    else if ids[0] in seen then false
    else
      var ok := InsertAllFresh(ids[1..], seen + {ids[0]});
      assert ok ==> NoDuplicates(ids) by {
        if ok {
          forall i, j | 0 <= i < j < |ids| ensures ids[i] != ids[j] {
            assert ids[j] == ids[1..][j - 1];
            if i > 0 { assert ids[i] == ids[1..][i - 1]; }
          }
        }
      }
      assert NoDuplicates(ids) && (forall i :: 0 <= i < |ids| ==> ids[i] !in seen) ==> ok by {
        if NoDuplicates(ids) && (forall i :: 0 <= i < |ids| ==> ids[i] !in seen) {
          forall i | 0 <= i < |ids[1..]| ensures ids[1..][i] !in seen + {ids[0]} {
            assert ids[1..][i] == ids[i + 1];
          }
          forall i, j | 0 <= i < j < |ids[1..]| ensures ids[1..][i] != ids[1..][j] {
            assert ids[1..][i] == ids[i + 1] && ids[1..][j] == ids[j + 1];
          }
        }
      }
      ok
  }

  lemma {:induction false} FlattenMembership(descs: seq<BlockDescription>, id: nat)
    ensures id in Flatten(descs) <==> exists k, i :: 0 <= k < |descs| && 0 <= i < |descs[k].order| && descs[k].order[i] == id
  {
    if descs != [] {
      FlattenMembership(descs[1..], id);
      if id in Flatten(descs[1..]) {
        var k, i :| 0 <= k < |descs[1..]| && 0 <= i < |descs[1..][k].order| && descs[1..][k].order[i] == id;
        assert descs[k + 1].order[i] == id;
      }
      if k, i :| 0 <= k < |descs| && 0 <= i < |descs[k].order| && descs[k].order[i] == id {
        if k == 0 {
          assert Flatten(descs)[i] == id;
        } else {
          assert descs[1..][k - 1].order[i] == id;
          assert id in Flatten(descs[1..]);
        }
      }
    }
  }

  lemma ConcatNoDuplicates(a: seq<nat>, b: seq<nat>)
    ensures NoDuplicates(a + b) <==>
            NoDuplicates(a) && NoDuplicates(b) && forall i :: 0 <= i < |a| ==> a[i] !in b
  {
    if NoDuplicates(a) && NoDuplicates(b) && forall i :: 0 <= i < |a| ==> a[i] !in b {
      forall i, j | 0 <= i < j < |a + b| ensures (a + b)[i] != (a + b)[j] {
        if j < |a| {
        } else if i < |a| {
          assert (a + b)[j] == b[j - |a|];
        } else {
          assert (a + b)[i] == b[i - |a|] && (a + b)[j] == b[j - |a|];
        }
      }
    }
    if NoDuplicates(a + b) {
      forall i, j | 0 <= i < j < |b| ensures b[i] != b[j] {
        assert (a + b)[|a| + i] == b[i] && (a + b)[|a| + j] == b[j];
      }
      forall i, j | 0 <= i < |a| && 0 <= j < |b| ensures a[i] != b[j] {
        assert (a + b)[i] == a[i] && (a + b)[|a| + j] == b[j];
      }
      forall i, j | 0 <= i < j < |a| ensures a[i] != a[j] {
        assert (a + b)[i] == a[i] && (a + b)[j] == a[j];
      }
    }
  }

  /** Check 1 on a list of descriptions splits into the head, the tail and what they share. */
  lemma AtMostOneDescriptionSplit(descs: seq<BlockDescription>)
    requires descs != []
    ensures AtMostOneDescription(descs) <==>
            && NoDuplicates(descs[0].order)
            && AtMostOneDescription(descs[1..])
            && forall i :: 0 <= i < |descs[0].order| ==> descs[0].order[i] !in Flatten(descs[1..])
  {
    var head := descs[0].order;
    forall k | 0 < k < |descs| ensures descs[1..][k - 1] == descs[k] { }
    forall i | 0 <= i < |head|
      ensures head[i] in Flatten(descs[1..]) <==>
              exists l, j :: 0 < l < |descs| && 0 <= j < |descs[l].order| && descs[l].order[j] == head[i]
    {
      FlattenMembership(descs[1..], head[i]);
      if l, j :| 0 < l < |descs| && 0 <= j < |descs[l].order| && descs[l].order[j] == head[i] {
        assert descs[1..][l - 1].order[j] == head[i];
      }
    }
  }

  /** Distinct flattened ids mean exactly "at most one description". */
  lemma {:induction false} FlattenNoDuplicates(descs: seq<BlockDescription>)
    ensures NoDuplicates(Flatten(descs)) <==> AtMostOneDescription(descs)
  {
    if descs != [] {
      FlattenNoDuplicates(descs[1..]);
      ConcatNoDuplicates(descs[0].order, Flatten(descs[1..]));
      AtMostOneDescriptionSplit(descs);
    }
  }

  // ---------------------------------------------------------------------
  // Check 2: every code basic block has valid successors

  /** The id is placed at some position of some description's ordering. */
  predicate InComposition(descs: seq<BlockDescription>, id: nat) {
    exists k, i :: 0 <= k < |descs| && 0 <= i < |descs[k].order| && descs[k].order[i] == id
  }

  /** An edge leaves the sub-graph, or lands on a block that will be emitted. */
  predicate SuccessorValid(blocks: map<nat, BasicBlock>, descs: seq<BlockDescription>, s: Successor) {
    s.External? || (s.target in blocks && InComposition(descs, s.target))
  }

  /** The position-wise meaning of check 2. */
  predicate SuccessorsValid(blocks: map<nat, BasicBlock>, descs: seq<BlockDescription>) {
    forall k, i, n :: 0 <= k < |descs| && 0 <= i < |descs[k].order| && descs[k].order[i] in blocks &&
                      blocks[descs[k].order[i]].kind == BasicCodeBlock &&
                      0 <= n < |blocks[descs[k].order[i]].successors|
      ==> SuccessorValid(blocks, descs, blocks[descs[k].order[i]].successors[n])
  }

  /** Whether every code block among ids has all its edges resolved inside placed or external. */
  function CodeSuccessorsResolved(ids: seq<nat>, blocks: map<nat, BasicBlock>, placed: set<nat>): (ok: bool)
    ensures ok <==> forall i, n :: 0 <= i < |ids| && ids[i] in blocks && blocks[ids[i]].kind == BasicCodeBlock &&
                                   0 <= n < |blocks[ids[i]].successors|
                      ==> (blocks[ids[i]].successors[n].External? ||
                           (blocks[ids[i]].successors[n].target in blocks && blocks[ids[i]].successors[n].target in placed))
  {
    if ids == [] then true
    else
      var b := ids[0];
      var here := b !in blocks || blocks[b].kind != BasicCodeBlock ||
                  forall s :: s in blocks[b].successors ==> s.External? || (s.target in blocks && s.target in placed);
      var ok := here && CodeSuccessorsResolved(ids[1..], blocks, placed);
      assert forall i :: 0 < i < |ids| ==> ids[i] == ids[1..][i - 1];
      ok
  }

  lemma SuccessorsValidByWalk(blocks: map<nat, BasicBlock>, descs: seq<BlockDescription>)
    ensures CodeSuccessorsResolved(Flatten(descs), blocks, set id | id in Flatten(descs)) <==> SuccessorsValid(blocks, descs)
  {
    var ids := Flatten(descs);
    var placed := set id | id in ids;
    forall id ensures id in placed <==> InComposition(descs, id) {
      FlattenMembership(descs, id);
    }
    if CodeSuccessorsResolved(ids, blocks, placed) {
      forall k, i, n | 0 <= k < |descs| && 0 <= i < |descs[k].order| && descs[k].order[i] in blocks &&
                       blocks[descs[k].order[i]].kind == BasicCodeBlock &&
                       0 <= n < |blocks[descs[k].order[i]].successors|
        ensures SuccessorValid(blocks, descs, blocks[descs[k].order[i]].successors[n])
      {
        FlattenMembership(descs, descs[k].order[i]);
        var p :| 0 <= p < |ids| && ids[p] == descs[k].order[i];
      }
    }
    if SuccessorsValid(blocks, descs) {
      forall p, n | 0 <= p < |ids| && ids[p] in blocks && blocks[ids[p]].kind == BasicCodeBlock &&
                    0 <= n < |blocks[ids[p]].successors|
        ensures blocks[ids[p]].successors[n].External? ||
                (blocks[ids[p]].successors[n].target in blocks && blocks[ids[p]].successors[n].target in placed)
      {
        FlattenMembership(descs, ids[p]);
        var k, i :| 0 <= k < |descs| && 0 <= i < |descs[k].order| && descs[k].order[i] == ids[p];
        assert SuccessorValid(blocks, descs, blocks[descs[k].order[i]].successors[n]);
      }
    }
  }

  // ---------------------------------------------------------------------
  // Check 3: every referrer of the original block is accounted for

  /** The referrer at offset lands in a range whose block is still emitted. */
  predicate ReferrerAccounted(space: seq<AS.Entry>, descs: seq<BlockDescription>, offset: int) {
    exists e :: e in space && AS.Contains(e.range, offset) && InComposition(descs, e.item)
  }

  /** The meaning of check 3: vacuous without an original block. */
  predicate ReferrersValid(space: seq<AS.Entry>, descs: seq<BlockDescription>, original: Option<OriginalBlock>) {
    original.Some? ==>
      forall i :: 0 <= i < |original.value.referrers| ==> ReferrerAccounted(space, descs, original.value.referrers[i])
  }

  /** This model's procedure for check 3: look up each referrer's range in address order. */
  function ReferrersResolved(refs: seq<int>, space: seq<AS.Entry>, placed: set<nat>): (ok: bool)
    ensures ok <==> forall i :: 0 <= i < |refs| ==>
                      AS.FindFirstIntersection(space, refs[i]).Some? &&
                      AS.FindFirstIntersection(space, refs[i]).value.item in placed
  {
    if refs == [] then true
    else
      var found := AS.FindFirstIntersection(space, refs[0]);
      var ok := found.Some? && found.value.item in placed && ReferrersResolved(refs[1..], space, placed);
      assert forall i :: 0 < i < |refs| ==> refs[i] == refs[1..][i - 1];
      ok
  }

  lemma ReferrersValidByWalk(space: seq<AS.Entry>, descs: seq<BlockDescription>, refs: seq<int>)
    requires AS.Valid(space)
    ensures ReferrersResolved(refs, space, set id | id in Flatten(descs)) <==>
            ReferrersValid(space, descs, Some(OriginalBlock(refs)))
  {
    forall id ensures id in Flatten(descs) <==> InComposition(descs, id) {
      FlattenMembership(descs, id);
    }
    forall i | 0 <= i < |refs| && ReferrerAccounted(space, descs, refs[i])
      ensures AS.FindFirstIntersection(space, refs[i]).Some? &&
              AS.FindFirstIntersection(space, refs[i]).value.item in Flatten(descs)
    {
      var e :| e in space && AS.Contains(e.range, refs[i]) && InComposition(descs, e.item);
      AS.ContainingEntryUnique(space, refs[i], e);
    }
  }

  // ---------------------------------------------------------------------
  // Consequences of the three checks

  /** A block placed in two descriptions (or twice in one) breaks check 1. */
  lemma DoubleBookingInvalid(descs: seq<BlockDescription>, k: nat, i: nat, l: nat, j: nat)
    requires k < |descs| && i < |descs[k].order| && l < |descs| && j < |descs[l].order|
    requires (k, i) != (l, j) && descs[k].order[i] == descs[l].order[j]
    ensures !AtMostOneDescription(descs)
  {
    if k == l {
      assert !NoDuplicates(descs[k].order) by {
        if i < j { } else { }
      }
    }
  }

  /** A placed code block with an edge to a block emitted nowhere breaks check 2. */
  lemma DanglingSuccessorInvalid(blocks: map<nat, BasicBlock>, descs: seq<BlockDescription>, k: nat, i: nat, n: nat)
    requires k < |descs| && i < |descs[k].order| && descs[k].order[i] in blocks
    requires blocks[descs[k].order[i]].kind == BasicCodeBlock
    requires n < |blocks[descs[k].order[i]].successors|
    requires blocks[descs[k].order[i]].successors[n].Internal?
    requires !InComposition(descs, blocks[descs[k].order[i]].successors[n].target)
    ensures !SuccessorsValid(blocks, descs)
  {
  }

  /**
   * A referrer into the range of a block that no description places breaks
   * check 3: no other range can account for it, since ranges are disjoint.
   */
  lemma {:induction false} DroppedEntryPointInvalid(space: seq<AS.Entry>, descs: seq<BlockDescription>,
                                                    referrers: seq<int>, r: nat, e: AS.Entry)
    requires AS.Valid(space)
    requires r < |referrers| && e in space && AS.Contains(e.range, referrers[r])
    requires !InComposition(descs, e.item)
    ensures !ReferrersValid(space, descs, Some(OriginalBlock(referrers)))
  {
    if ReferrerAccounted(space, descs, referrers[r]) {
      var e' :| e' in space && AS.Contains(e'.range, referrers[r]) && InComposition(descs, e'.item);
      AS.ContainingEntryUnique(space, referrers[r], e);
      AS.ContainingEntryUnique(space, referrers[r], e');
      assert false;
    }
  }

  /**
   * Checks 2 and 3 depend only on which blocks are placed, not on where:
   * moving a block to another position or description keeps their verdict.
   */
  lemma PlacementOnlyMatters(blocks: map<nat, BasicBlock>, space: seq<AS.Entry>,
                             d1: seq<BlockDescription>, d2: seq<BlockDescription>, original: Option<OriginalBlock>)
    requires forall id :: InComposition(d1, id) <==> InComposition(d2, id)
    ensures SuccessorsValid(blocks, d1) <==> SuccessorsValid(blocks, d2)
    ensures ReferrersValid(space, d1, original) <==> ReferrersValid(space, d2, original)
  {
    forall k, i | 0 <= k < |d1| && 0 <= i < |d1[k].order| ensures InComposition(d2, d1[k].order[i]) {
      assert InComposition(d1, d1[k].order[i]);
    }
    forall k, i | 0 <= k < |d2| && 0 <= i < |d2[k].order| ensures InComposition(d1, d2[k].order[i]) {
      assert InComposition(d2, d2[k].order[i]);
    }
    if SuccessorsValid(blocks, d1) {
      forall k, i, n | 0 <= k < |d2| && 0 <= i < |d2[k].order| && d2[k].order[i] in blocks &&
                       blocks[d2[k].order[i]].kind == BasicCodeBlock && 0 <= n < |blocks[d2[k].order[i]].successors|
        ensures SuccessorValid(blocks, d2, blocks[d2[k].order[i]].successors[n])
      {
        var k', i' :| 0 <= k' < |d1| && 0 <= i' < |d1[k'].order| && d1[k'].order[i'] == d2[k].order[i];
        assert SuccessorValid(blocks, d1, blocks[d1[k'].order[i']].successors[n]);
      }
    }
    if SuccessorsValid(blocks, d2) {
      forall k, i, n | 0 <= k < |d1| && 0 <= i < |d1[k].order| && d1[k].order[i] in blocks &&
                       blocks[d1[k].order[i]].kind == BasicCodeBlock && 0 <= n < |blocks[d1[k].order[i]].successors|
        ensures SuccessorValid(blocks, d1, blocks[d1[k].order[i]].successors[n])
      {
        var k', i' :| 0 <= k' < |d2| && 0 <= i' < |d2[k'].order| && d2[k'].order[i'] == d1[k].order[i];
        assert SuccessorValid(blocks, d2, blocks[d2[k'].order[i']].successors[n]);
      }
    }
  }

  // ---------------------------------------------------------------------
  // The sub-graph object

  /**
   * The sub-graph. It owns every basic block it creates (the map keyed by
   * id) and every description; the address space and the orderings refer
   * to blocks only by id.
   */
  class BasicBlockSubGraph {
    var originalBlock: Option<OriginalBlock>
    var basicBlocks: map<nat, BasicBlock>
    var originalAddressSpace: seq<AS.Entry>
    var blockDescriptions: seq<BlockDescription>
    var nextBasicBlockId: nat

    ghost predicate Valid()
      reads this
    {
      Consistent(basicBlocks, originalAddressSpace, blockDescriptions, nextBasicBlockId)
    }

    /** An empty sub-graph with no original block and the id counter at zero. */
    constructor()
      ensures Valid()
      ensures originalBlock == None && basicBlocks == map[] && originalAddressSpace == []
      ensures blockDescriptions == [] && nextBasicBlockId == 0
    {
      originalBlock := None;
      basicBlocks := map[];
      originalAddressSpace := [];
      blockDescriptions := [];
      nextBasicBlockId := 0;
    }

    method SetOriginalBlock(block: Option<OriginalBlock>)
      requires Valid()
      modifies this`originalBlock
      ensures Valid() && originalBlock == block
    {
      originalBlock := block;
    }

    /** Appends a description with an empty ordering; index is its position in the list. */
    method AddBlockDescription(name: string, blockType: BlockType, section: int,
                               alignment: nat, attributes: nat) returns (index: nat)
      requires Valid()
      modifies this`blockDescriptions
      ensures Valid()
      ensures index == |old(blockDescriptions)|
      ensures blockDescriptions == old(blockDescriptions) + [BlockDescription(name, blockType, section, alignment, attributes, [])]
    {
      index := |blockDescriptions|;
      blockDescriptions := blockDescriptions + [BlockDescription(name, blockType, section, alignment, attributes, [])];
    }

    /**
     * Creates a basic block for [offset, offset + size) of the original
     * block, or a generated one when offset is kNoOffset. Returns the new
     * block's id, or None when the origin is malformed or overlaps a block
     * already mapped, in which case nothing changes.
     */
    method AddBasicBlock(name: string, kind: BasicBlockType, offset: int, size: nat, data: seq<bv8>)
      returns (bb: Option<nat>)
      requires Valid()
      modifies this`basicBlocks, this`originalAddressSpace, this`nextBasicBlockId
      ensures Valid()
      ensures bb.Some? <==>
              (offset == kNoOffset && size == 0) ||
              (offset >= 0 && size > 0 && AS.Free(old(originalAddressSpace), AS.Range(offset, size)))
      ensures bb.Some? ==>
              && bb.value == old(nextBasicBlockId)
              && bb.value !in old(basicBlocks)
              && nextBasicBlockId == old(nextBasicBlockId) + 1
              && basicBlocks == old(basicBlocks)[bb.value := BasicBlock(bb.value, name, kind, offset, size, data, [])]
      ensures bb.Some? && offset == kNoOffset ==> originalAddressSpace == old(originalAddressSpace)
      ensures bb.Some? && offset != kNoOffset ==>
              |originalAddressSpace| == |old(originalAddressSpace)| + 1 &&
              forall e :: e in originalAddressSpace <==>
                          e in old(originalAddressSpace) || e == AS.Entry(AS.Range(offset, size), bb.value)
      ensures bb.None? ==>
              basicBlocks == old(basicBlocks) && originalAddressSpace == old(originalAddressSpace) &&
              nextBasicBlockId == old(nextBasicBlockId)
    {
      var id := nextBasicBlockId;
      var block := BasicBlock(id, name, kind, offset, size, data, []);
      if offset == kNoOffset {
        if size != 0 {
          return None;
        }
      } else {
        if offset < 0 {
          return None;
        }
        var inserted := AS.Insert(originalAddressSpace, AS.Range(offset, size), id);
        if inserted.None? {
          return None;
        }
        originalAddressSpace := inserted.value;
      }
      basicBlocks := basicBlocks[id := block];
      nextBasicBlockId := nextBasicBlockId + 1;
      bb := Some(id);
    }

    /** Places an existing basic block at the end of a description's ordering. */
    method AppendToOrder(index: nat, id: nat)
      requires Valid()
      requires index < |blockDescriptions| && id in basicBlocks
      modifies this`blockDescriptions
      ensures Valid()
      ensures blockDescriptions ==
              old(blockDescriptions)[index := old(blockDescriptions)[index].(order := old(blockDescriptions)[index].order + [id])]
    {
      var d := blockDescriptions[index];
      blockDescriptions := blockDescriptions[index := d.(order := d.order + [id])];
    }

    /** Records the control-flow successors the decomposer found for a block. */
    method SetSuccessors(id: nat, successors: seq<Successor>)
      requires Valid()
      requires id in basicBlocks
      modifies this`basicBlocks
      ensures Valid()
      ensures basicBlocks == old(basicBlocks)[id := old(basicBlocks)[id].(successors := successors)]
    {
      basicBlocks := basicBlocks[id := basicBlocks[id].(successors := successors)];
    }

    /** The block whose original range begins at base, if any. */
    function FindBasicBlock(base: int): (bb: Option<nat>)
      reads this
      requires Valid()
      ensures bb.Some? <==> exists e :: e in originalAddressSpace && e.range.start == base
      ensures bb.Some? ==> bb.value in basicBlocks && basicBlocks[bb.value].offset == base
    {
      var r := BlockAt(originalAddressSpace, base);
      if r.Some? then
        BlockAtCorrect(originalAddressSpace, base, r.value);
        r
      else
        assert forall e :: e in originalAddressSpace && e.range.start == base ==> false by {
          forall e | e in originalAddressSpace && e.range.start == base ensures false {
            BlockAtCorrect(originalAddressSpace, base, e.item);
          }
        }
        r
    }

    function MapsBasicBlocksToAtMostOneDescription(): (ok: bool)
      reads this
      ensures ok <==> AtMostOneDescription(blockDescriptions)
    {
      FlattenNoDuplicates(blockDescriptions);
      InsertAllFresh(Flatten(blockDescriptions), {})
    }

    function HasValidSuccessors(): (ok: bool)
      reads this
      ensures ok <==> SuccessorsValid(basicBlocks, blockDescriptions)
    {
      SuccessorsValidByWalk(basicBlocks, blockDescriptions);
      var ids := Flatten(blockDescriptions);
      CodeSuccessorsResolved(ids, basicBlocks, set id | id in ids)
    }

    function HasValidReferrers(): (ok: bool)
      reads this
      requires Valid()
      ensures originalBlock.None? ==> ok
      ensures ok <==> ReferrersValid(originalAddressSpace, blockDescriptions, originalBlock)
    {
      match originalBlock
      case None => true
      case Some(b) =>
        ReferrersValidByWalk(originalAddressSpace, blockDescriptions, b.referrers);
        var ids := Flatten(blockDescriptions);
        ReferrersResolved(b.referrers, originalAddressSpace, set id | id in ids)
    }

    /** The conjunction of the three checks. */
    function IsValid(): (ok: bool)
      reads this
      requires Valid()
      ensures ok <==> && AtMostOneDescription(blockDescriptions)
                      && SuccessorsValid(basicBlocks, blockDescriptions)
                      && ReferrersValid(originalAddressSpace, blockDescriptions, originalBlock)
    {
      MapsBasicBlocksToAtMostOneDescription() && HasValidSuccessors() && HasValidReferrers()
    }
  }

  /** A fresh sub-graph holding one generated code block, placed in one description. */
  method SingleBlockScenario() returns (g: BasicBlockSubGraph, valid: bool)
    ensures fresh(g) && g.Valid() && valid
    ensures g.originalBlock == None && g.nextBasicBlockId == 1
    ensures g.basicBlocks == map[0 := BasicBlock(0, "A", BasicCodeBlock, kNoOffset, 0, [0x90], [])]
    ensures g.blockDescriptions == [BlockDescription("D", CodeBlock, 1, 16, 0, [0])]
  {
    g := new BasicBlockSubGraph();
    var a := g.AddBasicBlock("A", BasicCodeBlock, kNoOffset, 0, [0x90]);
    assert a == Some(0) && g.originalAddressSpace == [];
    var d := g.AddBlockDescription("D", CodeBlock, 1, 16, 0);
    assert d == 0 && g.blockDescriptions == [BlockDescription("D", CodeBlock, 1, 16, 0, [])];
    g.AppendToOrder(d, a.value);
    assert g.blockDescriptions[0].order == [] + [0] == [0];
    SingleBlockChecks();
    valid := g.IsValid();
  }

  /** Checks 1 and 2 hold for one generated code block placed in one description. */
  lemma SingleBlockChecks()
    ensures var descs := [BlockDescription("D", CodeBlock, 1, 16, 0, [0])];
            && AtMostOneDescription(descs)
            && SuccessorsValid(map[0 := BasicBlock(0, "A", BasicCodeBlock, kNoOffset, 0, [0x90], [])], descs)
  {
  }

  /**
   * The sub-graph above is valid; adding a second placed code block whose
   * successor names a block that was never created makes it invalid.
   */
  method DanglingSuccessorScenario() returns (before: bool, after: bool)
    ensures before && !after
  {
    var g;
    g, before := SingleBlockScenario();
    var b := g.AddBasicBlock("B", BasicCodeBlock, kNoOffset, 0, [0xC3]);
    g.SetSuccessors(b.value, [Internal(7)]);
    var d2 := g.AddBlockDescription("D2", CodeBlock, 1, 16, 0);
    g.AppendToOrder(d2, b.value);
    assert g.blockDescriptions[1].order == [1];
    assert !InComposition(g.blockDescriptions, 7);
    DanglingSuccessorInvalid(g.basicBlocks, g.blockDescriptions, 1, 0, 0);
    after := g.IsValid();
  }
}

=== FILE: wrappers.dfy ===
/** The Option type used wherever the source returns or accepts a value that may be NULL. */
module Wrappers {
  datatype Option<+T> = None | Some(value: T)
}
